=== FILE: README.md ===
# taurusapi job store, in Dafny

A model of the job store and work queue of taurusapi, an HTTP front end for the
Taurus load-testing tool (`bzt`). A job is submitted with `POST /test`. It gets
an id from the `last` marker file and a directory `<root>/<id>`. Then it is
either queued or, when the queue is full, answered at once with an overflow
error. A scheduled worker takes one queued task per tick. The task writes the
job's configuration, runs `bzt`, and the tick stores the output as
`<root>/<id>/result`. `GET /test/<id>` reads a job's status, `GET /test` lists
the jobs, and `DELETE /test` removes every job directory.

The state is a `Disk` plus a FIFO `seq<Task>`:

- A `Disk` records whether the store root exists. It maps every path below the
  root (a list of components) to a directory or a file with its text.
- Every operation is a pure function or a method over this state.
- Failing filesystem calls, which throw `IOException` in the source, become
  `None` results. Each operation then takes the branch its handler takes.

Modules, in dependency order:

- `Wrappers`: `Option`.
- `Text`:
  - ASCII upper-casing and substring search;
  - `Long.toString` / `Long.parseLong` with their round trip;
  - 64-bit wrap-around;
  - the lines `BufferedReader.readLine` yields and the text `extractResult` joins;
  - the URL helpers of the controller.
- `ConfTree`: the `Json` tree and `buildConf`.
- `FileSystem`: `Disk`, its well-formedness, `createDir` and file writing.
- `PathOrder`: the string order on paths that `Comparator.reverseOrder()`
  sorts by, and a selection sort that produces the descending order.
- `TreeDeletion`: the deletion loop of `cleanup`, tolerant of per-entry failures.
- `TaskRunner`:
  - the path builders;
  - `extractMediaType`, `extractResult`;
  - `put`, the queued task, and `run`.
- `TestController`:
  - id allocation and `createTest`;
  - `getTest`, `getTests`, `cleanup`;
  - the lemmas tying them together.

Four behaviours of the code are easy to miss, and the model follows them:

- **Body parsing happens in the worker, not at admission.** A body that does
  not parse is still admitted. Its task then returns `Result(-1, "")`, like
  every other `IOException` in the task. The tick writes that empty text to
  `<root>/-1/result`, which fails unless a directory `-1` exists. The job's
  own result is never written, so it reads as still running for good.
- **A root that is not an object throws.** The body may parse to a scalar or
  a list. The cast to `ObjectNode` then throws `ClassCastException`, which the
  task's handler does not catch. The tick has already removed the task, so the
  job is dropped and nothing is written.
- **`modules` is replaced as a whole.** It is not merged: any other module the
  caller configured is gone.
- **Ids start at 0.** With no marker the text "-1" is parsed. An empty marker
  reads as "0", so the next id is 1.

## Model

| member | source | states |
|---|---|---|
| FileSystem.CreateDir | src/main/java/com/globo/ateam/taurusapi/services/TaskRunnerService.java:105-107 | succeeds exactly when the path already exists or its parent directory exists; an existing entry is left as it is, a new one is a directory; no other entry appears or changes; well-formedness is kept |
| FileSystem.CreateDirIdempotent | src/main/java/com/globo/ateam/taurusapi/services/TaskRunnerService.java:105-107 | creating a directory that was just created succeeds and changes nothing more |
| FileSystem.WriteFile | src/main/java/com/globo/ateam/taurusapi/services/TaskRunnerService.java:113-117 | succeeds exactly when the parent directory exists and no directory stands at the path; the file then holds exactly the data written and every other entry is unchanged |
| TaskRunner.PathBuildersAgree | src/main/java/com/globo/ateam/taurusapi/services/TaskRunnerService.java:80-86 | the id directory, result file, configuration file and artifacts directory strings are the store root, "/", and the rendering of the component paths the model uses |
| TaskRunner.ResultFileInjective | src/main/java/com/globo/ateam/taurusapi/services/TaskRunnerService.java:84-86 | two different ids never share a result file |
| TaskRunner.JobPathsDistinct | src/main/java/com/globo/ateam/taurusapi/services/TaskRunnerService.java:69 | job directories and result paths are distinct per id, and a result path is never a configuration file or an artifacts directory |
| TaskRunner.ExtractMediaType | src/main/java/com/globo/ateam/taurusapi/services/TaskRunnerService.java:109-111 | the media type is "json" or "yml", and "json" exactly when the upper-cased content type occurs in "APPLICATION/JSON" |
| TaskRunner.JsonContentType | src/main/java/com/globo/ateam/taurusapi/services/TaskRunnerService.java:109-111 | "application/json" selects JSON, while the same type with a charset parameter selects YAML |
| TaskRunner.YamlContentTypes | src/main/java/com/globo/ateam/taurusapi/controllers/TestController.java:67 | each of the three YAML content types the endpoint accepts selects YAML |
| Text.Contains | src/main/java/com/globo/ateam/taurusapi/services/TaskRunnerService.java:110 | the search answers true exactly when the needle occurs at some position of the text |
| TaskRunner.ExtractResult | src/main/java/com/globo/ateam/taurusapi/services/TaskRunnerService.java:119-126 | the text is every line followed by a line feed, its length is the sum of the line lengths plus one per line, and reading it back line by line gives the lines again |
| Text.LinesOfJoined | src/main/java/com/globo/ateam/taurusapi/services/TaskRunnerService.java:119-126 | splitting the joined text at line terminators returns exactly the lines that were joined |
| ConfTree.BuildConf | src/main/java/com/globo/ateam/taurusapi/services/TaskRunnerService.java:137-157 | fails exactly when the root is not an object; otherwise `settings`, `modules` and `provisioning` hold the fixed values, the keys are the old keys plus these three, and every other key keeps its value |
| ConfTree.BuildConfFixesForced | src/main/java/com/globo/ateam/taurusapi/services/TaskRunnerService.java:140-155 | a tree that already carries the forced values comes back unchanged |
| ConfTree.BuildConfIdempotent | src/main/java/com/globo/ateam/taurusapi/services/TaskRunnerService.java:139-155 | applying the transform twice gives the same tree as applying it once |
| ConfTree.ForcedKeysIgnored | src/main/java/com/globo/ateam/taurusapi/services/TaskRunnerService.java:143-155 | two documents that differ only in the forced keys give the same configuration |
| TaskRunner.Put | src/main/java/com/globo/ateam/taurusapi/services/TaskRunnerService.java:61-103 | with the root present the job's directory exists afterwards; no entry is removed, and every entry other than the job's directory and its result file is as it was; on overflow the queue is unchanged; otherwise the task is appended, the directory is the only new entry and the job's result (if any) is untouched; other jobs' results are untouched; with the root missing nothing changes |
| TaskRunner.OverflowWritesError | src/main/java/com/globo/ateam/taurusapi/services/TaskRunnerService.java:88-97 | a rejected job's result is exactly the overflow payload and the queue is unchanged |
| TaskRunner.Execute | src/main/java/com/globo/ateam/taurusapi/services/TaskRunnerService.java:63-76 | the task returns its own id or `Result(-1, "")`; it throws exactly when the body parses to a non-object; returning its own id means the configuration built and the result is the tool's lines joined; a configuration that cannot be built leaves the disk exactly as it was; otherwise only the configuration file and artifacts directory can appear |
| TaskRunner.ExecuteSucceeds | src/main/java/com/globo/ateam/taurusapi/services/TaskRunnerService.java:63-76 | a task that returns its own id has written the built configuration to `test.<media type>` and created `artifacts-dir`; with the job's directory in place, no directory at the configuration path, a buildable configuration and readable tool output, the task returns exactly its own id and the tool's lines joined |
| TaskRunner.StoreResult | src/main/java/com/globo/ateam/taurusapi/services/TaskRunnerService.java:164-169 | the result text is written under the id the result carries when that job's directory exists; no other job's result changes; a thrown task writes nothing |
| TaskRunner.Run | src/main/java/com/globo/ateam/taurusapi/services/TaskRunnerService.java:159-172 | an empty queue changes nothing; otherwise exactly the head is removed, no entry is removed, every entry other than the head's configuration file, its artifacts directory, its result and the result of id -1 is as it was, and at most one of those two results changes |
| TaskRunner.JobResultsKept | src/main/java/com/globo/ateam/taurusapi/services/TaskRunnerService.java:66-71 | running a task touches no result file and no job directory |
| TaskRunner.FailedTaskLeavesResult | src/main/java/com/globo/ateam/taurusapi/services/TaskRunnerService.java:72-75 | when the task returns `Result(-1, "")`, the submitting job's result is what it was before the tick, and with a directory `-1` in place the empty text lands in `-1/result` |
| TaskRunner.RunThrewKeepsDisk | src/main/java/com/globo/ateam/taurusapi/services/TaskRunnerService.java:139-163 | when the task throws because the body is not an object, the tick leaves the disk exactly as it was and only drops the head of the queue |
| TaskRunner.RunStoresOutput | src/main/java/com/globo/ateam/taurusapi/services/TaskRunnerService.java:159-169 | when the configuration builds and the tool's output is read, the job's result is that output, one line feed after each line |
| Text.ParseLong | src/main/java/com/globo/ateam/taurusapi/controllers/TestController.java:72 | a value is returned only for an optionally signed decimal inside the `long` range |
| Text.WrapLong | src/main/java/com/globo/ateam/taurusapi/controllers/TestController.java:72 | the sum lands in the `long` range, equals the exact value when that fits, and is congruent to it modulo 2^64 |
| Text.DecimalRoundTrip | src/main/java/com/globo/ateam/taurusapi/controllers/TestController.java:72-74 | parsing the decimal text of a number gives the number back |
| Text.DecimalInjective | src/main/java/com/globo/ateam/taurusapi/services/TaskRunnerService.java:80-82 | different ids have different decimal texts, hence different directories |
| Text.FirstLine | src/main/java/com/globo/ateam/taurusapi/controllers/TestController.java:71 | there is no first line exactly when the text is empty; otherwise it is a terminator-free prefix that ends at the end of the text or at a line terminator, the whole text when that has no terminator |
| Text.StripTrailingSlash | src/main/java/com/globo/ateam/taurusapi/controllers/TestController.java:44 | the URL is the result or the result plus one "/", and a URL ending in "/" loses exactly that slash |
| Text.BasenameOfChild | src/main/java/com/globo/ateam/taurusapi/controllers/TestController.java:47 | removing everything up to the last "/" from a child path gives back the child's name |
| TestController.NextId | src/main/java/com/globo/ateam/taurusapi/controllers/TestController.java:71-72 | no marker gives id 0, an empty marker gives 1, a directory at the marker fails, and every id lies in the `long` range |
| TestController.NextIdAfterMarker | src/main/java/com/globo/ateam/taurusapi/controllers/TestController.java:71-74 | a marker whose first line is the rendering of n, whatever follows it, gives id n+1 |
| Text.FirstLineOfText | src/main/java/com/globo/ateam/taurusapi/controllers/TestController.java:71 | a marker whose text is a line followed by a line feed and anything at all reads back as exactly that line |
| TestController.MarkLast | src/main/java/com/globo/ateam/taurusapi/controllers/TestController.java:73-75 | writing the marker succeeds exactly when the root exists and the marker is not a directory; it then holds the new id and nothing else changes |
| TestController.PutKeepsMarker | src/main/java/com/globo/ateam/taurusapi/controllers/TestController.java:73-78 | admitting the job does not alter the marker just written |
| TestController.CreateTest | src/main/java/com/globo/ateam/taurusapi/controllers/TestController.java:68-80 | creation succeeds exactly when the root exists and an id can be read; the id is the allocated one; the location is the request URL without its trailing slash, "/", and the id; the marker then holds the id; the queue grows by that job's task unless it overflows; every entry other than the marker, the job's directory and the job's result is as it was, the job's result too unless the queue overflows, and no other job's result changes; an existing job directory keeps its node and a new one is a directory; a failure changes nothing |
| TestController.ConsecutiveIdsFrom | src/main/java/com/globo/ateam/taurusapi/controllers/TestController.java:71-78 | from a marker allowing next id n (any `long`, negative ones included), k creations succeed with ids n, n+1, ..., n+k-1 in order, as long as they stay within `long` |
| TestController.ConsecutiveIds | src/main/java/com/globo/ateam/taurusapi/controllers/TestController.java:71-78 | with no marker, k creations allocate ids 0, 1, ..., k-1 in order |
| TestController.GetTest | src/main/java/com/globo/ateam/taurusapi/controllers/TestController.java:53-65 | a present result file is returned verbatim; otherwise a present job directory reads as still running; otherwise not found; reading fails exactly when a directory stands at the result path |
| TestController.GetTests | src/main/java/com/globo/ateam/taurusapi/controllers/TestController.java:39-51 | not found exactly when the root is missing; otherwise a URL is listed exactly when it is the stripped request URL, "/", and the name of a directory directly under the root |
| TestController.ListingSkipsMarker | src/main/java/com/globo/ateam/taurusapi/controllers/TestController.java:45-47 | the `last` marker, a file, never appears in the listing |
| PathOrder.AncestorIsLess | src/main/java/com/globo/ateam/taurusapi/controllers/TestController.java:89 | a path's string sorts strictly before the string of each of its descendants |
| PathOrder.DescendingIsChildrenFirst | src/main/java/com/globo/ateam/taurusapi/controllers/TestController.java:89 | in reverse path order every descendant comes before its ancestor |
| PathOrder.SortDescending | src/main/java/com/globo/ateam/taurusapi/controllers/TestController.java:89 | the sorted walk holds exactly the walked paths, each once, in descending order, descendants first |
| TreeDeletion.Delete | src/main/java/com/globo/ateam/taurusapi/controllers/TestController.java:92 | an entry disappears exactly when it exists, has no children and its deletion does not fail; otherwise nothing changes |
| TreeDeletion.DeleteInOrder | src/main/java/com/globo/ateam/taurusapi/controllers/TestController.java:89-96 | deleting a descendants-first order removes a listed entry exactly when no undeletable entry lies at or below it; survivors keep their content |
| TreeDeletion.PlanCleanup | src/main/java/com/globo/ateam/taurusapi/controllers/TestController.java:87-89 | the deletion order holds exactly the entries under the directories directly below the root, each once, descendants first |
| TreeDeletion.CleanupEntries | src/main/java/com/globo/ateam/taurusapi/controllers/TestController.java:86-100 | the entries left are those outside every job tree plus those with an undeletable entry at or below them |
| TreeDeletion.CleanedIdempotent | src/main/java/com/globo/ateam/taurusapi/controllers/TestController.java:86-100 | cleaning up what a cleanup left removes nothing more |
| TreeDeletion.CleanedPrefixClosed | src/main/java/com/globo/ateam/taurusapi/controllers/TestController.java:89-96 | no entry outlives one of its ancestors |
| TreeDeletion.CleanedRemovesJobTrees | src/main/java/com/globo/ateam/taurusapi/controllers/TestController.java:87-96 | without failures no entry of any job tree survives and no directory remains directly under the root |
| TestController.Cleanup | src/main/java/com/globo/ateam/taurusapi/controllers/TestController.java:82-103 | a missing root changes nothing; entries are only removed, never altered; an entry survives exactly when it is outside every job tree or something undeletable lies at or below it; the queue is untouched and well-formedness is kept |
| TestController.ListingEmptyAfterCleanup | src/main/java/com/globo/ateam/taurusapi/controllers/TestController.java:86-100 | after a cleanup without failures the listing is empty |
| TestController.CleanupIdempotent | src/main/java/com/globo/ateam/taurusapi/controllers/TestController.java:83-103 | a second cleanup is a no-op |
| TestController.IdsContinueAfterCleanup | src/main/java/com/globo/ateam/taurusapi/controllers/TestController.java:71 | when the marker is not a directory, cleanup keeps it, so the next id is the same as before |
| TestController.AcceptedJobPending | src/main/java/com/globo/ateam/taurusapi/controllers/TestController.java:68-78 | a new job admitted to the queue is appended and reads as still running, its directory ready for the worker |
| TestController.FirstJobCreated | src/main/java/com/globo/ateam/taurusapi/controllers/TestController.java:71-79 | the first job on an empty store gets id 0 and location `<url>/0`, and reads as still running |
| TestController.FirstJobLifecycle | src/main/java/com/globo/ateam/taurusapi/controllers/TestController.java:53-65 | the first job reads as still running after creation and, after one tick, as the tool's output |
| TestController.OverflowVisibleAtOnce | src/main/java/com/globo/ateam/taurusapi/controllers/TestController.java:68-78 | a job created while the queue is full is not queued and its result reads at once as the overflow payload |

## Left out

- Jackson parsing and serialising (`readTree`, `writeValueAsBytes`) are functions of an `Env` record, not modelled; only the tree transform is. JSON numbers are integers, and the key order of objects is not modelled.
- The `bzt` subprocess is a function from the configuration text to its output lines, or to a failure to start or read it. Its artifacts and its standard error are not modelled.
- Bytes and characters are the same: charset conversion (`getBytes`, `InputStreamReader`, `Files.newBufferedWriter`) is taken to be the identity.
- Text.Upper: folds ASCII letters only, whereas `String.toUpperCase` folds all of Unicode.
- Text.ParseLong: accepts ASCII digits only, whereas `Long.parseLong` also accepts other Unicode decimal digits.
- Text.StripTrailingSlash: the regular expression `/$` also matches a slash just before a final line terminator; URLs are taken to have no line terminators.
- Text.Basename: `.*/` does not match across line terminators; path names are taken to have none.
- Concurrency and timing are not modelled: the single-thread executor, the five-second schedule, the concurrent queue and `synchronized`. Every call is one atomic step.
- HTTP plumbing is not modelled: request bodies, status codes, the Gson and `ImmutableMap` response bodies, `URI.create`. Responses are the constructors of `Status`, `Listing` and `Creation`.
- The order of the listing is not modelled: `Files.list` gives no guaranteed order, so the listing is a set of URLs.
- Logging is not modelled. System properties are not read: the task limit is a parameter of `Put` and `CreateTest`, and the store root is the root of the `Disk`.
- The constructor's creation of the store root is not modelled: `rootExists` is part of the state, and each operation follows its branch for a missing root.
- Deletions that fail for reasons outside the model, such as permissions, are given as a set of undeletable paths. The rest of `Files.delete` is modelled: it refuses a non-empty directory.
- `Files.walk` failing as a whole for one job directory is not modelled; only per-entry deletion failures are.
- Symbolic links are not modelled.
- `WebConfig.java` wires message converters and holds no logic of the store; it is not part of this model.

=== FILE: conf_tree.dfy ===
/** The configuration transform `buildConf`: a submitted document, parsed
    into a generic tree, gets fixed top-level keys overwritten before it is
    handed to the load-test tool. Parsing and serialising are left to the
    caller; only the tree transform is modelled here. */
module ConfTree {
  import opened Wrappers

  /** The generic document tree both the JSON and the YAML mapper produce. */
  datatype Json =
    | Null
    | Bool(b: bool)
    | Num(n: int)
    | Str(s: string)
    | Arr(items: seq<Json>)
    | Obj(fields: map<string, Json>)

  /** Top-level keys `buildConf` forces. */
  const ForcedKeys: set<string> := {"settings", "modules", "provisioning"}

  /** Tool modules that are switched off. */
  const DisabledModules: set<string> := {"console", "final-stats", "functional-consolidator"}

  const Settings: Json :=
    Obj(map["check-updates" := Bool(false), "check-interval" := Str("10s")])

  const Disabled: Json := Obj(map["disable" := Bool(true)])

  const Modules: Json :=
    Obj(map["console" := Disabled, "final-stats" := Disabled, "functional-consolidator" := Disabled])

  const Provisioning: Json := Str("local")

  /** A tree that already carries the forced settings. */
  predicate IsForced(j: Json) {
    && j.Obj?
    && ForcedKeys <= j.fields.Keys
    && j.fields["settings"] == Settings
    && j.fields["modules"] == Modules
    && j.fields["provisioning"] == Provisioning
  }

  /** `buildConf` on a parsed root. A root that is not an object fails the
      cast to `ObjectNode` (None); otherwise the three keys are set, and
      every other key keeps its value. */
  function BuildConf(root: Json): (r: Option<Json>)
    ensures r.None? <==> !root.Obj?
    ensures r.Some? ==> IsForced(r.value)
    ensures r.Some? ==> r.value.fields.Keys == root.fields.Keys + ForcedKeys
    ensures r.Some? ==> forall k :: k in root.fields && k !in ForcedKeys ==> r.value.fields[k] == root.fields[k]
  {
    if !root.Obj? then None
    else
      Some(Obj(root.fields["settings" := Settings]["modules" := Modules]["provisioning" := Provisioning]))
  }

  /** A tree that already carries the forced keys is left as it is. */
  lemma BuildConfFixesForced(j: Json)
    requires IsForced(j)
    ensures BuildConf(j) == Some(j)
  {
    var r := BuildConf(j).value;
    assert r.fields.Keys == j.fields.Keys;
    forall k | k in j.fields
      ensures r.fields[k] == j.fields[k]
    {
    }
    assert r.fields == j.fields;
  }

  /** Applying the transform twice gives what applying it once gives. */
  lemma BuildConfIdempotent(root: Json)
    requires root.Obj?
    ensures BuildConf(BuildConf(root).value) == BuildConf(root)
  {
    BuildConfFixesForced(BuildConf(root).value);
  }

  /** Two submissions that agree outside the forced keys yield the same
      configuration: what a caller puts at a forced key never matters. */
  lemma ForcedKeysIgnored(a: Json, b: Json)
    requires a.Obj? && b.Obj?
    requires a.fields.Keys + ForcedKeys == b.fields.Keys + ForcedKeys
    requires forall k :: k in a.fields && k !in ForcedKeys ==> k in b.fields && a.fields[k] == b.fields[k]
    ensures BuildConf(a) == BuildConf(b)
  {
    var ra := BuildConf(a).value;
    var rb := BuildConf(b).value;
    forall k | k in ra.fields
      ensures k in rb.fields && ra.fields[k] == rb.fields[k]
    {
    }
    assert ra.fields == rb.fields;
  }
}

=== FILE: file_system.dfy ===
/** The part of the filesystem the service touches: the store root
    (`<tmp>/taurusconfs`) and everything below it. A path is the list of its
    components below the root; the root itself may be missing. */
module FileSystem {
  import opened Wrappers

  type Path = seq<string>

  datatype Node = Dir | File(data: string)

  datatype Disk = Disk(rootExists: bool, entries: map<Path, Node>)

  /** A single path component: non-empty and free of separators. */
  predicate ValidName(n: string) {
    |n| > 0 && '/' !in n
  }

  predicate ValidPath(p: Path) {
    |p| >= 1 && forall i :: 0 <= i < |p| ==> ValidName(p[i])
  }

  predicate IsPrefix(p: Path, q: Path) {
    |p| <= |q| && q[..|p|] == p
  }

  predicate ProperPrefix(p: Path, q: Path) {
    |p| < |q| && q[..|p|] == p
  }

  predicate IsDirAt(d: Disk, p: Path) {
    p in d.entries && d.entries[p].Dir?
  }

  /** Every entry sits below the root, which then exists, and every proper
      ancestor of an entry is a directory that exists. */
  predicate WellFormed(d: Disk) {
    && (!d.rootExists ==> d.entries == map[])
    && (forall p :: p in d.entries ==> ValidPath(p))
    && (forall p, k :: p in d.entries && 1 <= k < |p| ==> IsDirAt(d, p[..k]))
  }

  function Parent(p: Path): Path
    requires |p| >= 1
  {
    p[..|p| - 1]
  }

  /** The directory a new entry at `p` would be created in exists. */
  predicate ParentIsDir(d: Disk, p: Path) {
    |p| >= 1 && d.rootExists && (|p| == 1 || IsDirAt(d, Parent(p)))
  }

  lemma AddEntryWellFormed(d: Disk, p: Path, n: Node)
    requires ParentIsDir(d, p)
    requires p in d.entries ==> d.entries[p].File? && n.File?
    ensures WellFormed(d) && ValidPath(p) ==> WellFormed(Disk(d.rootExists, d.entries[p := n]))
  {
    if !(WellFormed(d) && ValidPath(p)) {
      return;
    }
    var d' := Disk(d.rootExists, d.entries[p := n]);
    forall q, k | q in d'.entries && 1 <= k < |q|
      ensures IsDirAt(d', q[..k])
    {
      if q == p {
        assert q[..k] == Parent(p)[..k];
        if k < |p| - 1 {
          assert IsDirAt(d, Parent(p)[..k]);
        }
      } else {
        assert IsDirAt(d, q[..k]);
        if q[..k] == p {
          assert false;
        }
      }
    }
  }

  /** In a well-formed disk an entry's ancestors are directories. */
  lemma AncestorIsDir(d: Disk, p: Path, k: nat)
    requires WellFormed(d) && 1 <= k < |p|
    ensures p in d.entries ==> IsDirAt(d, p[..k])
  {
  }

  /** `createDir`: creates the directory unless something already exists at
      that path; creation fails (an IOException) when the parent directory
      is missing. */
  function CreateDir(d: Disk, p: Path): (r: Option<Disk>)
    ensures r.Some? <==> p in d.entries || ParentIsDir(d, p)
    ensures r.Some? ==> r.value.rootExists == d.rootExists && p in r.value.entries
    ensures r.Some? ==> r.value.entries.Keys == d.entries.Keys + {p}
    ensures r.Some? ==> forall q :: q in d.entries ==> r.value.entries[q] == d.entries[q]
    ensures r.Some? ==> forall q :: q in r.value.entries && q != p ==> q in d.entries
    ensures r.Some? && p !in d.entries ==> r.value.entries[p] == Dir
    ensures r.Some? && WellFormed(d) && ValidPath(p) ==> WellFormed(r.value)
  {
    if p in d.entries then Some(d)
    else if ParentIsDir(d, p) then
      AddEntryWellFormed(d, p, Dir);
      Some(Disk(d.rootExists, d.entries[p := Dir]))
    else None
  }

  /** Creating a directory twice is the same as creating it once. */
  lemma CreateDirIdempotent(d: Disk, p: Path)
    requires CreateDir(d, p).Some?
    ensures CreateDir(CreateDir(d, p).value, p) == CreateDir(d, p)
  {
  }

  /** Writing a file (`FileOutputStream`, `Files.newBufferedWriter`): creates
      or truncates the file; fails when the parent directory is missing or
      a directory stands at that path. */
  function WriteFile(d: Disk, p: Path, data: string): (r: Option<Disk>)
    ensures r.Some? <==> ParentIsDir(d, p) && !IsDirAt(d, p)
    ensures r.Some? ==> r.value.rootExists == d.rootExists
    ensures r.Some? ==> p in r.value.entries && r.value.entries[p] == File(data)
    ensures r.Some? ==> forall q :: q in d.entries && q != p ==> q in r.value.entries && r.value.entries[q] == d.entries[q]
    ensures r.Some? ==> forall q :: q in r.value.entries && q != p ==> q in d.entries
    ensures r.Some? && WellFormed(d) && ValidPath(p) ==> WellFormed(r.value)
  {
    if ParentIsDir(d, p) && !IsDirAt(d, p) then
      AddEntryWellFormed(d, p, File(data));
      Some(Disk(d.rootExists, d.entries[p := File(data)]))
    else None
  }

  /** The entry at `p`, or its absence, is the same on both disks. */
  predicate SameAt(d: Disk, d': Disk, p: Path) {
    && (p in d.entries <==> p in d'.entries)
    && (p in d.entries ==> d'.entries[p] == d.entries[p])
  }

  /** Content of the regular file at `p`, if there is one. */
  function FileAt(d: Disk, p: Path): Option<string> {
    if p in d.entries && d.entries[p].File? then Some(d.entries[p].data) else None
  }
}

=== FILE: path_order.dfy ===
/** The order `cleanup` deletes a job directory's tree in: the paths
    `Files.walk` yields, sorted by `Comparator.reverseOrder()`. Paths compare
    by their string form, so an ancestor, whose string is a proper prefix of
    its descendant's, sorts before it, and after reversing every descendant
    comes first. */
module PathOrder {
  import opened FileSystem

  /** String form of a path: its components joined by "/". */
  function Render(p: Path): string
    decreases |p|
  {
    if |p| == 0 then ""
    else if |p| == 1 then p[0]
    else p[0] + "/" + Render(p[1..])
  }

  /** Lexicographic order on strings, character by character; a proper
      prefix is smaller. */
  predicate LexLess(a: string, b: string)
    decreases |a|
  {
    |b| > 0 && (|a| == 0 || a[0] < b[0] || (a[0] == b[0] && LexLess(a[1..], b[1..])))
  }

  lemma {:induction false} LexLessIrreflexive(a: string)
    ensures !LexLess(a, a)
    decreases |a|
  {
    if |a| > 0 {
      LexLessIrreflexive(a[1..]);
    }
  }

  lemma {:induction false} LexLessTransitive(a: string, b: string, c: string)
    requires LexLess(a, b) && LexLess(b, c)
    ensures LexLess(a, c)
    decreases |a|
  {
    if |a| > 0 && a[0] == b[0] == c[0] {
      LexLessTransitive(a[1..], b[1..], c[1..]);
    }
  }

  lemma {:induction false} PrefixIsLess(a: string, rest: string)
    requires |rest| > 0
    ensures LexLess(a, a + rest)
    decreases |a|
  {
    if |a| > 0 {
      assert (a + rest)[1..] == a[1..] + rest;
      PrefixIsLess(a[1..], rest);
    }
  }

  /** The string of a descendant extends its ancestor's string by "/" and
      the remaining components. */
  lemma {:induction false} RenderOfDescendant(p: Path, q: Path)
    requires |p| >= 1 && ProperPrefix(p, q)
    ensures Render(q) == Render(p) + "/" + Render(q[|p|..])
    decreases |p|
  {
    assert p[0] == q[0];
    if |p| == 1 {
      assert q[|p|..] == q[1..];
    } else {
      var p', q' := p[1..], q[1..];
      assert q'[..|p'|] == p';
      RenderOfDescendant(p', q');
      assert q'[|p'|..] == q[|p|..];
      calc {
        Render(q);
        q[0] + "/" + Render(q');
        q[0] + "/" + (Render(p') + "/" + Render(q[|p|..]));
        (p[0] + "/" + Render(p')) + "/" + Render(q[|p|..]);
      }
    }
  }

  /** An ancestor sorts strictly before each of its descendants. */
  lemma AncestorIsLess(p: Path, q: Path)
    requires |p| >= 1 && ProperPrefix(p, q)
    ensures LexLess(Render(p), Render(q))
  {
    var a, tail := Render(p), "/" + Render(q[|p|..]);
    RenderOfDescendant(p, q);
    assert Render(q) == a + tail;
    PrefixIsLess(a, tail);
  }

  /** No later element is greater than an earlier one. */
  predicate Descending(order: seq<Path>) {
    forall i, j :: 0 <= i < j < |order| ==> !LexLess(Render(order[i]), Render(order[j]))
  }

  predicate Distinct(order: seq<Path>) {
    forall i, j :: 0 <= i < j < |order| ==> order[i] != order[j]
  }

  /** Every descendant comes before each of its ancestors. */
  predicate ChildrenFirst(order: seq<Path>) {
    forall i, j :: 0 <= i < |order| && 0 <= j < |order| && ProperPrefix(order[j], order[i]) ==> i < j
  }

  /** Reverse path order deletes every descendant before its ancestor. */
  lemma DescendingIsChildrenFirst(order: seq<Path>)
    requires forall i :: 0 <= i < |order| ==> |order[i]| >= 1
    requires Descending(order)
    ensures ChildrenFirst(order)
  {
    forall i, j | 0 <= i < |order| && 0 <= j < |order| && ProperPrefix(order[j], order[i])
      ensures i < j
    {
      AncestorIsLess(order[j], order[i]);
      LexLessIrreflexive(Render(order[i]));
    }
  }

  /** A path of `s` that no other path of `s` exceeds. */
  predicate IsMaximal(m: Path, s: set<Path>) {
    m in s && forall x :: x in s ==> !LexLess(Render(m), Render(x))
  }

  lemma {:induction false} MaximalExists(s: set<Path>)
    requires s != {}
    ensures exists m :: IsMaximal(m, s)
    decreases |s|
  {
    var y :| y in s;
    LexLessIrreflexive(Render(y));
    if s == {y} {
      assert IsMaximal(y, s);
    } else {
      var rest := s - {y};
      MaximalExists(rest);
      var m :| IsMaximal(m, rest);
      if LexLess(Render(m), Render(y)) {
        forall x | x in s
          ensures !LexLess(Render(y), Render(x))
        {
          if x != y && LexLess(Render(y), Render(x)) {
            LexLessTransitive(Render(m), Render(y), Render(x));
          }
        }
        assert IsMaximal(y, s);
      } else {
        assert IsMaximal(m, s);
      }
    }
  }

  /** `sorted(Comparator.reverseOrder())` over a finite set of paths, by
      repeatedly taking a largest remaining path. */
  method SortDescending(s: set<Path>) returns (order: seq<Path>)
    requires forall p :: p in s ==> |p| >= 1
    ensures forall p :: p in order <==> p in s
    ensures Distinct(order)
    ensures Descending(order)
    ensures ChildrenFirst(order)
  {
    var rest := s;
    order := [];
    while rest != {}
      invariant rest <= s
      invariant forall p :: p in order <==> p in s && p !in rest
      invariant Distinct(order)
      invariant Descending(order)
      invariant forall i, x :: 0 <= i < |order| && x in rest ==> !LexLess(Render(order[i]), Render(x))
      decreases rest
    {
      MaximalExists(rest);
      var m :| IsMaximal(m, rest);
      order := order + [m];
      rest := rest - {m};
    }
    DescendingIsChildrenFirst(order);
  }
}

=== FILE: task_runner.dfy ===
/** `TaskRunnerService`: admission of a job (`put`), the task closure the
    queue holds, and the worker tick (`run`). The filesystem is a `Disk`; the
    Jackson mappers and the `bzt` subprocess are the functions of an `Env`. */
module TaskRunner {
  import opened Wrappers
  import opened Text
  import opened ConfTree
  import opened FileSystem
  import PathOrder

  const OverflowMessage: string := "ERROR: Task Queue Overflow. Try again later"

  /** The result text a rejected job gets. */
  const OverflowBody: string := "{\"status\":\"" + OverflowMessage + "\"}"

  const ApplicationJson: string := "application/json"

  /** A queued closure: the job id, the submitted body and its content type. */
  datatype Task = Task(id: int, body: string, contentType: string)

  /** The service's state: the store on disk and the FIFO of pending tasks. */
  datatype Service = Service(disk: Disk, queue: seq<Task>)

  /** The source's `Result`: the id whose result file is written, and the text. */
  datatype TaskResult = TaskResult(id: int, text: string)

  /** A task either returns a `Result` or throws an unchecked exception,
      which `run` does not catch. */
  datatype Outcome = Returned(result: TaskResult) | Threw

  datatype Format = JsonFormat | YamlFormat

  /** What the model does not compute itself: parsing a body with the
      mapper of a format (None for an IOException), serialising a tree, and
      running `bzt` on a configuration (its output lines, or None when the
      process cannot be started or read). */
  datatype Env = Env(
    parse: (string, Format) -> Option<Json>,
    serialize: (Json, Format) -> string,
    bzt: string -> Option<seq<string>>)

  /** What a task returns when preparing or running it throws an IOException. */
  const FailedResult: TaskResult := TaskResult(-1, "")

  // ---------------------------------------------------------------------
  // Path builders
  // ---------------------------------------------------------------------

  function IdDirectory(root: string, id: int): string {
    root + "/" + Decimal(id)
  }

  function ResultFile(root: string, id: int): string {
    IdDirectory(root, id) + "/result"
  }

  function ConfFile(root: string, id: int, mediaType: string): string {
    IdDirectory(root, id) + "/test." + mediaType
  }

  function ArtifactsDir(root: string, id: int): string {
    IdDirectory(root, id) + "/artifacts-dir"
  }

  /** The same locations as paths below the store root. */
  function JobDir(id: int): Path {
    [Decimal(id)]
  }

  function ResultPath(id: int): Path {
    JobDir(id) + ["result"]
  }

  function ConfPath(id: int, mediaType: string): Path {
    JobDir(id) + ["test." + mediaType]
  }

  function ArtifactsPath(id: int): Path {
    JobDir(id) + ["artifacts-dir"]
  }

  /** The string paths the service builds name exactly the entries the
      component paths denote. */
  lemma PathBuildersAgree(root: string, id: int, mediaType: string)
    ensures IdDirectory(root, id) == root + "/" + PathOrder.Render(JobDir(id))
    ensures ResultFile(root, id) == root + "/" + PathOrder.Render(ResultPath(id))
    ensures ConfFile(root, id, mediaType) == root + "/" + PathOrder.Render(ConfPath(id, mediaType))
    ensures ArtifactsDir(root, id) == root + "/" + PathOrder.Render(ArtifactsPath(id))
  {
    assert ResultPath(id)[1..] == ["result"];
    assert ConfPath(id, mediaType)[1..] == ["test." + mediaType];
    assert ArtifactsPath(id)[1..] == ["artifacts-dir"];
  }

  /** Two jobs never share a result file. */
  lemma ResultFileInjective(root: string, a: int, b: int)
    requires ResultFile(root, a) == ResultFile(root, b)
    ensures a == b
  {
    var sa, sb := ResultFile(root, a), ResultFile(root, b);
    var n := |root| + 1;
    assert |Decimal(a)| == |Decimal(b)|;
    assert Decimal(a) == sa[n..n + |Decimal(a)|];
    assert Decimal(b) == sb[n..n + |Decimal(b)|];
    DecimalInjective(a, b);
  }

  lemma JobPathsValid(id: int, mediaType: string)
    ensures ValidPath(JobDir(id)) && ValidPath(ResultPath(id)) && ValidPath(ArtifactsPath(id))
    ensures '/' !in mediaType ==> ValidPath(ConfPath(id, mediaType))
  {
    DecimalShape(id);
    assert forall i :: 0 <= i < |Decimal(id)| ==> Decimal(id)[i] != '/';
    assert '/' !in Decimal(id);
  }

  lemma JobPathsDistinct(a: int, b: int, mediaType: string)
    ensures ResultPath(a) == ResultPath(b) ==> a == b
    ensures JobDir(a) == JobDir(b) ==> a == b
    ensures ResultPath(a) != ConfPath(b, mediaType) && ResultPath(a) != ArtifactsPath(b)
  {
    if ResultPath(a) == ResultPath(b) {
      assert Decimal(a) == ResultPath(a)[0] == ResultPath(b)[0] == Decimal(b);
      DecimalInjective(a, b);
    }
    if JobDir(a) == JobDir(b) {
      assert Decimal(a) == JobDir(a)[0] == JobDir(b)[0] == Decimal(b);
      DecimalInjective(a, b);
    }
    assert ResultPath(a)[1] == "result";
    assert ConfPath(b, mediaType)[1] == "test." + mediaType;
    assert ("test." + mediaType)[0] == 't';
  }

  // ---------------------------------------------------------------------
  // Views of the store
  // ---------------------------------------------------------------------

  /** The content of a job's result file, if it has one. */
  function ResultOf(d: Disk, id: int): Option<string> {
    FileAt(d, ResultPath(id))
  }

  // ---------------------------------------------------------------------
  // Small helpers of the task
  // ---------------------------------------------------------------------

  /** `extractMediaType`: "json" when the upper-cased content type occurs in
      "APPLICATION/JSON", "yml" otherwise. */
  function ExtractMediaType(contentType: string): (mt: string)
    ensures mt == "json" || mt == "yml"
    ensures mt == "json" <==> IsSubstring(Upper(contentType), "APPLICATION/JSON")
  {
    assert Upper(ApplicationJson) == "APPLICATION/JSON";
    if Contains(Upper(ApplicationJson), Upper(contentType)) then "json" else "yml"
  }

  /** The mapper `buildConf` picks for a media type. */
  function Mapper(mediaType: string): Format {
    if mediaType == "yml" then YamlFormat else JsonFormat
  }

  /** The JSON content type selects the JSON mapper; with a parameter such
      as a charset it is no longer a substring and reads as YAML. */
  lemma JsonContentType()
    ensures ExtractMediaType("application/json") == "json"
    ensures ExtractMediaType("application/json;charset=UTF-8") == "yml"
  {
    assert Upper("application/json") == "APPLICATION/JSON";
    assert OccursAt("APPLICATION/JSON", "APPLICATION/JSON", 0);
    assert |Upper("application/json;charset=UTF-8")| > |"APPLICATION/JSON"|;
  }

  /** The three YAML content types the controller accepts select YAML. */
  lemma YamlContentTypes()
    ensures ExtractMediaType("text/yaml") == "yml"
    ensures ExtractMediaType("application/yaml") == "yml"
    ensures ExtractMediaType("application/x-yaml") == "yml"
  {
    var h := "APPLICATION/JSON";
    assert h[0] == 'A' && h[1] == 'P' && h[2] == 'P' && h[3] == 'L' && h[4] == 'I';
    assert h[5] == 'C' && h[6] == 'A' && h[7] == 'T' && h[8] == 'I';
    var t := Upper("text/yaml");
    assert |t| == 9 && t[0] == 'T' && t[1] == 'E';
    forall i | 0 <= i <= |h| - |t| ensures !OccursAt(t, h, i) {
      if i == 7 { MismatchAt(t, h, i, 1); } else { MismatchAt(t, h, i, 0); }
    }
    var y := Upper("application/yaml");
    assert |y| == 16 && y[12] == 'Y' && h[12] == 'J';
    MismatchAt(y, h, 0, 12);
    assert |Upper("application/x-yaml")| > |h|;
  }

  /** `extractResult`: the loop that appends each line read and a line
      feed. */
  method ExtractResult(lines: seq<string>) returns (text: string)
    ensures text == Joined(lines)
    ensures |text| == TotalLength(lines)
    ensures (forall i :: 0 <= i < |lines| ==> IsLine(lines[i])) ==> Lines(text) == lines
  {
    text := "";
    var i := 0;
    while i < |lines|
      invariant 0 <= i <= |lines|
      invariant text == Joined(lines[..i])
    {
      JoinedSnoc(lines[..i], lines[i]);
      assert lines[..i + 1] == lines[..i] + [lines[i]];
      text := text + lines[i] + "\n";
      i := i + 1;
    }
    assert lines[..i] == lines;
    JoinedLength(lines);
    if forall i :: 0 <= i < |lines| ==> IsLine(lines[i]) {
      LinesOfJoined(lines);
    }
  }

  // ---------------------------------------------------------------------
  // Admission
  // ---------------------------------------------------------------------

  /** `taskQueueOverflow`'s capacity test; a limit of 0 means unbounded. */
  predicate Overflows(taskLimit: int, queued: nat) {
    taskLimit != 0 && queued >= taskLimit
  }

  /** `put`: creates the job's directory, then either writes the overflow
      result or appends the task. When the directory cannot be created, or
      the overflow result cannot be written, the IOException is logged and
      the task is dropped all the same. */
  function Put(s: Service, taskLimit: int, id: int, body: string, contentType: string): (s': Service)
    ensures s'.disk.rootExists == s.disk.rootExists
    ensures !s.disk.rootExists && WellFormed(s.disk) ==> s' == s
    ensures s.disk.rootExists ==> JobDir(id) in s'.disk.entries
    ensures s.disk.rootExists && JobDir(id) !in s.disk.entries ==> IsDirAt(s'.disk, JobDir(id))
    ensures forall p :: p in s.disk.entries ==> p in s'.disk.entries
    ensures forall p :: p in s.disk.entries && p != ResultPath(id) ==> s'.disk.entries[p] == s.disk.entries[p]
    ensures Overflows(taskLimit, |s.queue|) ==> s'.queue == s.queue
    ensures s.disk.rootExists && !Overflows(taskLimit, |s.queue|) ==>
              s'.queue == s.queue + [Task(id, body, contentType)] && s'.disk.entries.Keys == s.disk.entries.Keys + {JobDir(id)}
    ensures !Overflows(taskLimit, |s.queue|) ==> forall p :: p != JobDir(id) ==> SameAt(s.disk, s'.disk, p)
    ensures forall p :: p != JobDir(id) && p != ResultPath(id) ==> SameAt(s.disk, s'.disk, p)
    ensures forall j :: j != id ==> ResultOf(s'.disk, j) == ResultOf(s.disk, j)
    ensures WellFormed(s.disk) ==> WellFormed(s'.disk)
  {
    JobPathsValid(id, "");
    JobPathsDistinctAll(id);
    match CreateDir(s.disk, JobDir(id))
    case None => s
    case Some(d1) =>
      if Overflows(taskLimit, |s.queue|) then
        match WriteFile(d1, ResultPath(id), OverflowBody)
        case Some(d2) => Service(d2, s.queue)
        case None => Service(d1, s.queue)
      else
        Service(d1, s.queue + [Task(id, body, contentType)])
  }

  lemma JobPathsDistinctAll(id: int)
    ensures forall j :: j != id ==> ResultPath(j) != ResultPath(id)
    ensures forall j :: ResultPath(j) != JobDir(id)
  {
    forall j | j != id
      ensures ResultPath(j) != ResultPath(id)
    {
      JobPathsDistinct(j, id, "");
    }
  }

  /** A rejected job gets the overflow result, unless something other than
      a directory already stands at its directory's or result's path. */
  lemma OverflowWritesError(s: Service, taskLimit: int, id: int, body: string, contentType: string)
    requires s.disk.rootExists && Overflows(taskLimit, |s.queue|)
    requires JobDir(id) in s.disk.entries ==> s.disk.entries[JobDir(id)].Dir?
    requires !IsDirAt(s.disk, ResultPath(id))
    ensures ResultOf(Put(s, taskLimit, id, body, contentType).disk, id) == Some(OverflowBody)
    ensures Put(s, taskLimit, id, body, contentType).queue == s.queue
  {
    var d1 := CreateDir(s.disk, JobDir(id)).value;
    assert Parent(ResultPath(id)) == JobDir(id);
    assert IsDirAt(d1, JobDir(id));
    JobPathsDistinct(id, id, "");
    assert ResultPath(id) != JobDir(id);
    assert !IsDirAt(d1, ResultPath(id));
  }

  // ---------------------------------------------------------------------
  // The task and the worker tick
  // ---------------------------------------------------------------------

  /** The configuration text a task writes and hands to `bzt`: None when the
      body does not parse or its root is not an object. */
  function ConfText(t: Task, env: Env): Option<string> {
    var mt := ExtractMediaType(t.contentType);
    match env.parse(t.body, Mapper(mt))
    case None => None
    case Some(root) =>
      match BuildConf(root)
      case None => None
      case Some(conf) => Some(env.serialize(conf, Mapper(mt)))
  }

  /** The closure `put` enqueues: build the configuration, write it to
      `test.<media type>`, create `artifacts-dir`, run `bzt` and collect its
      output. An IOException anywhere yields `Result(-1, "")`; a root that is
      not an object throws past the closure's handler. */
  function Execute(d: Disk, t: Task, env: Env): (r: (Disk, Outcome))
    ensures r.1.Returned? ==> r.1.result.id == t.id || r.1.result == FailedResult
    ensures r.1.Threw? <==>
              exists root :: env.parse(t.body, Mapper(ExtractMediaType(t.contentType))) == Some(root) && !root.Obj?
    ensures r.1.Returned? && r.1.result.id == t.id && t.id != -1 ==>
              ConfText(t, env).Some? && env.bzt(ConfText(t, env).value).Some?
              && r.1.result.text == Joined(env.bzt(ConfText(t, env).value).value)
    ensures ConfText(t, env).None? ==> r.0 == d
    ensures r.0.rootExists == d.rootExists
    ensures forall p :: p in d.entries ==> p in r.0.entries
    ensures forall p :: p in r.0.entries && p != ConfPath(t.id, ExtractMediaType(t.contentType)) && p != ArtifactsPath(t.id) ==>
              p in d.entries && r.0.entries[p] == d.entries[p]
    ensures WellFormed(d) ==> WellFormed(r.0)
  {
    var mt := ExtractMediaType(t.contentType);
    JobPathsValid(t.id, mt);
    match env.parse(t.body, Mapper(mt))
    case None => (d, Returned(FailedResult))
    case Some(root) =>
      match BuildConf(root)
      case None => (d, Threw)
      case Some(conf) =>
        var text := env.serialize(conf, Mapper(mt));
        match WriteFile(d, ConfPath(t.id, mt), text)
        case None => (d, Returned(FailedResult))
        case Some(d1) =>
          match CreateDir(d1, ArtifactsPath(t.id))
          case None => (d1, Returned(FailedResult))
          case Some(d2) =>
            match env.bzt(text)
            case None => (d2, Returned(FailedResult))
            case Some(lines) => (d2, Returned(TaskResult(t.id, Joined(lines))))
  }

  /** A task that returns its own id has written the built configuration to
      `test.<media type>` and has `artifacts-dir`; and with the job's
      directory in place, a configuration that builds and a `bzt` run that
      can be read, it does return its own id with the tool's output. */
  lemma ExecuteSucceeds(d: Disk, t: Task, env: Env)
    ensures var r := Execute(d, t, env);
            r.1.Returned? && r.1.result.id == t.id && t.id != -1 ==>
              FileAt(r.0, ConfPath(t.id, ExtractMediaType(t.contentType))) == ConfText(t, env)
              && ArtifactsPath(t.id) in r.0.entries
    ensures d.rootExists && IsDirAt(d, JobDir(t.id)) && !IsDirAt(d, ConfPath(t.id, ExtractMediaType(t.contentType)))
            && ConfText(t, env).Some? && env.bzt(ConfText(t, env).value).Some? ==>
              Execute(d, t, env).1 == Returned(TaskResult(t.id, Joined(env.bzt(ConfText(t, env).value).value)))
  {
    var mt := ExtractMediaType(t.contentType);
    JobPathsValid(t.id, mt);
    JobPathsDistinct(t.id, t.id, mt);
    assert Parent(ConfPath(t.id, mt)) == JobDir(t.id) && Parent(ArtifactsPath(t.id)) == JobDir(t.id);
  }

  /** Writing the returned result to `<id>/result`; when that fails the
      IOException escapes `run` and nothing is written. */
  function StoreResult(d: Disk, out: Outcome): (d': Disk)
    ensures d'.rootExists == d.rootExists
    ensures forall p :: p in d.entries ==> p in d'.entries
    ensures out.Threw? ==> d' == d
    ensures out.Returned? ==> forall j :: j != out.result.id ==> ResultOf(d', j) == ResultOf(d, j)
    ensures out.Returned? && d.rootExists && IsDirAt(d, JobDir(out.result.id)) && !IsDirAt(d, ResultPath(out.result.id)) ==>
              ResultOf(d', out.result.id) == Some(out.result.text)
    ensures out.Returned? && !IsDirAt(d, JobDir(out.result.id)) ==> d' == d
    ensures forall p :: p in d'.entries && (out.Threw? || p != ResultPath(out.result.id)) ==>
              p in d.entries && d'.entries[p] == d.entries[p]
    ensures WellFormed(d) ==> WellFormed(d')
  {
    match out
    case Threw => d
    case Returned(TaskResult(id, text)) =>
      JobPathsValid(id, "");
      JobPathsDistinctAll(id);
      assert Parent(ResultPath(id)) == JobDir(id);
      match WriteFile(d, ResultPath(id), text)
      case Some(d1) => d1
      case None => d
  }

  /** `run`, one tick of the worker: nothing on an empty queue; otherwise
      the head task is removed, executed to completion, and its result
      stored under the id the result carries. */
  function Run(s: Service, env: Env): (s': Service)
    ensures |s.queue| == 0 ==> s' == s
    ensures |s.queue| > 0 ==> s'.queue == s.queue[1..]
    ensures s'.disk.rootExists == s.disk.rootExists
    ensures forall p :: p in s.disk.entries ==> p in s'.disk.entries
    ensures |s.queue| > 0 ==> forall j :: j != s.queue[0].id && j != -1 ==> ResultOf(s'.disk, j) == ResultOf(s.disk, j)
    ensures |s.queue| > 0 ==> forall p ::
              && p != ConfPath(s.queue[0].id, ExtractMediaType(s.queue[0].contentType))
              && p != ArtifactsPath(s.queue[0].id)
              && p != ResultPath(s.queue[0].id) && p != ResultPath(-1)
              ==> SameAt(s.disk, s'.disk, p)
    ensures |s.queue| > 0 && s.queue[0].id != -1 ==>
              SameAt(s.disk, s'.disk, ResultPath(s.queue[0].id)) || SameAt(s.disk, s'.disk, ResultPath(-1))
    ensures WellFormed(s.disk) ==> WellFormed(s'.disk)
  {
    if |s.queue| == 0 then s
    else
      var t := s.queue[0];
      var (d1, out) := Execute(s.disk, t, env);
      JobResultsKept(s.disk, d1, t);
      var d2 := StoreResult(d1, out);
      var target := if out.Returned? then ResultPath(out.result.id) else ResultPath(t.id);
      TickFrame(s.disk, d1, d2, ConfPath(t.id, ExtractMediaType(t.contentType)), ArtifactsPath(t.id), target);
      JobPathsDistinct(t.id, t.id, ExtractMediaType(t.contentType));
      JobPathsDistinct(-1, t.id, ExtractMediaType(t.contentType));
      Service(d2, s.queue[1..])
  }

  /** Preparing a task changes at most `conf` and `artifacts`; storing its
      result changes at most `target`; so the tick leaves every other entry
      as it was. */
  lemma TickFrame(d: Disk, d1: Disk, d2: Disk, conf: Path, artifacts: Path, target: Path)
    requires forall p :: p in d.entries ==> p in d1.entries
    requires forall p :: p in d1.entries && p != conf && p != artifacts ==> p in d.entries && d1.entries[p] == d.entries[p]
    requires forall p :: p in d1.entries ==> p in d2.entries
    requires forall p :: p in d2.entries && p != target ==> p in d1.entries && d2.entries[p] == d1.entries[p]
    ensures forall p :: p != conf && p != artifacts && p != target ==> SameAt(d, d2, p)
  {
  }

  /** Executing a task never touches any result file. */
  lemma JobResultsKept(d: Disk, d1: Disk, t: Task)
    requires forall p :: p in d.entries ==> p in d1.entries
    requires forall p :: p in d1.entries && p != ConfPath(t.id, ExtractMediaType(t.contentType)) && p != ArtifactsPath(t.id) ==>
               p in d.entries && d1.entries[p] == d.entries[p]
    ensures forall j :: ResultOf(d1, j) == ResultOf(d, j)
    ensures forall j :: IsDirAt(d1, JobDir(j)) <==> IsDirAt(d, JobDir(j))
    ensures forall j :: IsDirAt(d1, ResultPath(j)) <==> IsDirAt(d, ResultPath(j))
  {
    forall j
      ensures ResultPath(j) != ConfPath(t.id, ExtractMediaType(t.contentType)) && ResultPath(j) != ArtifactsPath(t.id)
      ensures JobDir(j) != ConfPath(t.id, ExtractMediaType(t.contentType)) && JobDir(j) != ArtifactsPath(t.id)
    {
      JobPathsDistinct(j, t.id, ExtractMediaType(t.contentType));
    }
  }

  /** A task whose preparation fails returns `Result(-1, "")`: the tick then
      aims at the result file of a job -1, and the submitting job's own
      result is never written, so it reads as still running for good. */
  lemma FailedTaskLeavesResult(s: Service, env: Env)
    requires |s.queue| > 0 && s.queue[0].id != -1
    requires Execute(s.disk, s.queue[0], env).1 == Returned(FailedResult)
    ensures ResultOf(Run(s, env).disk, s.queue[0].id) == ResultOf(s.disk, s.queue[0].id)
    ensures s.disk.rootExists && IsDirAt(s.disk, JobDir(-1)) && !IsDirAt(s.disk, ResultPath(-1)) ==>
              ResultOf(Run(s, env).disk, -1) == Some("")
  {
    var t := s.queue[0];
    var (d1, out) := Execute(s.disk, t, env);
    JobResultsKept(s.disk, d1, t);
  }

  /** A task whose body parses to something other than an object throws
      out of the tick: the job is dropped and nothing is written. */
  lemma RunThrewKeepsDisk(s: Service, env: Env)
    requires |s.queue| > 0 && Execute(s.disk, s.queue[0], env).1.Threw?
    ensures Run(s, env).disk == s.disk
    ensures Run(s, env).queue == s.queue[1..]
  {
  }

  /** A task whose configuration builds and whose `bzt` run can be read to
      the end leaves the tool's output, line by line, as the job's result. */
  lemma RunStoresOutput(s: Service, env: Env, lines: seq<string>)
    requires |s.queue| > 0 && s.disk.rootExists
    requires IsDirAt(s.disk, JobDir(s.queue[0].id))
    requires !IsDirAt(s.disk, ResultPath(s.queue[0].id))
    requires !IsDirAt(s.disk, ConfPath(s.queue[0].id, ExtractMediaType(s.queue[0].contentType)))
    requires ConfText(s.queue[0], env).Some?
    requires env.bzt(ConfText(s.queue[0], env).value) == Some(lines)
    ensures ResultOf(Run(s, env).disk, s.queue[0].id) == Some(Joined(lines))
  {
    var t := s.queue[0];
    var mt := ExtractMediaType(t.contentType);
    assert Parent(ConfPath(t.id, mt)) == JobDir(t.id);
    assert Parent(ArtifactsPath(t.id)) == JobDir(t.id);
    var (d1, out) := Execute(s.disk, t, env);
    JobResultsKept(s.disk, d1, t);
    assert out == Returned(TaskResult(t.id, Joined(lines)));
  }
}

=== FILE: test_controller.dfy ===
/** `TestController`: the four operations behind `/test` — listing the jobs,
    reading one job's status, creating a job (with its id allocated from the
    `last` marker file), and cleaning up every job directory. HTTP status
    codes become the constructors of the result datatypes. */
module TestController {
  import opened Wrappers
  import opened Text
  import opened FileSystem
  import opened TaskRunner
  import opened TreeDeletion

  /** The marker file holding the last id allocated. */
  const LastPath: Path := ["last"]

  /** `getTest`: the result's content, "still running", not found (404), or
      a failure to read a result that is not a regular file. */
  datatype Status = Finished(content: string) | StillRunning | NotFound | ReadFailed

  /** `getTests`: the job URLs, or not found when the store root is missing. */
  datatype Listing = Listed(urls: set<string>) | RootMissing

  /** `createTest`: created with the job's location, or failed with an
      exception (reading or writing the marker, parsing its number). */
  datatype Creation = Created(location: string, id: int) | Failed

  // ---------------------------------------------------------------------
  // Id allocation
  // ---------------------------------------------------------------------

  /** The text `createTest` parses: "-1" when there is no marker, its first
      line when there is one, "0" when the marker is empty. Reading a
      directory fails. */
  function LastIdText(d: Disk): Option<string> {
    if LastPath !in d.entries then Some("-1")
    else if d.entries[LastPath].Dir? then None
    else match FirstLine(d.entries[LastPath].data)
      case None => Some("0")
      case Some(line) => Some(line)
  }

  /** The id `createTest` allocates: one more than the parsed marker, with
      `long` wrap-around. */
  function NextId(d: Disk): (r: Option<int>)
    ensures r.Some? ==> LongMin <= r.value <= LongMax
    ensures LastPath !in d.entries ==> r == Some(0)
    ensures FileAt(d, LastPath) == Some("") ==> r == Some(1)
    ensures LastPath in d.entries && d.entries[LastPath].Dir? ==> r.None?
  {
    assert ParseLong("-1") == Some(-1) by {
      DecimalRoundTrip(-1);
      assert Decimal(-1) == "-1";
    }
    assert ParseLong("0") == Some(0) by {
      DecimalRoundTrip(0);
    }
    match LastIdText(d)
    case None => None
    case Some(text) =>
      match ParseLong(text)
      case None => None
      case Some(n) => Some(WrapLong(n + 1))
  }

  /** A marker holding a rendered id yields the next id. */
  lemma NextIdAfterMarker(d: Disk, text: string, n: int)
    requires LongMin <= n < LongMax
    requires FileAt(d, LastPath) == Some(text) && FirstLine(text) == Some(Decimal(n))
    ensures NextId(d) == Some(n + 1)
  {
    DecimalRoundTrip(n);
  }

  /** `createTest`: allocate the id, record it in the marker, build the
      location, and hand the job to `put`. */
  function CreateTest(s: Service, taskLimit: int, requestUrl: string, body: string, contentType: string): (r: (Service, Creation))
    ensures r.1.Failed? ==> r.0 == s
    ensures s.disk.rootExists && NextId(s.disk).Some? <==> r.1.Created?
    ensures r.1.Created? ==> NextId(s.disk) == Some(r.1.id)
    ensures r.1.Created? ==> r.1.location == StripTrailingSlash(requestUrl) + "/" + Decimal(r.1.id)
    ensures r.1.Created? ==> FileAt(r.0.disk, LastPath) == Some(Decimal(r.1.id))
    ensures r.1.Created? ==> JobDir(r.1.id) in r.0.disk.entries
    ensures r.1.Created? ==> r.0.queue == (if Overflows(taskLimit, |s.queue|) then s.queue
                                           else s.queue + [Task(r.1.id, body, contentType)])
    ensures r.1.Created? ==> forall p :: p != LastPath && p != JobDir(r.1.id) && p != ResultPath(r.1.id) ==> SameAt(s.disk, r.0.disk, p)
    ensures r.1.Created? && !Overflows(taskLimit, |s.queue|) ==> SameAt(s.disk, r.0.disk, ResultPath(r.1.id))
    ensures r.1.Created? && JobDir(r.1.id) in s.disk.entries ==> r.0.disk.entries[JobDir(r.1.id)] == s.disk.entries[JobDir(r.1.id)]
    ensures r.1.Created? && JobDir(r.1.id) !in s.disk.entries ==> IsDirAt(r.0.disk, JobDir(r.1.id))
    ensures forall j :: r.1.Created? && j != r.1.id ==> ResultOf(r.0.disk, j) == ResultOf(s.disk, j)
    ensures r.0.disk.rootExists == s.disk.rootExists
    ensures WellFormed(s.disk) ==> WellFormed(r.0.disk)
  {
    match NextId(s.disk)
    case None => (s, Failed)
    case Some(id) =>
      match MarkLast(s.disk, id)
      case None => (s, Failed)
      case Some(d1) =>
        PutKeepsMarker(Service(d1, s.queue), taskLimit, id, body, contentType);
        var s2 := Put(Service(d1, s.queue), taskLimit, id, body, contentType);
        CreateFrame(s.disk, d1, s2.disk, id, !Overflows(taskLimit, |s.queue|));
        (s2, Created(StripTrailingSlash(requestUrl) + "/" + Decimal(id), id))
  }

  /** Writing the marker and then putting job `id` leaves every entry but the
      marker, the job directory and the job's result as it was, and so
      every other job's result. */
  lemma CreateFrame(d: Disk, d1: Disk, d2: Disk, id: int, keepsResult: bool)
    requires forall p :: p != LastPath ==> SameAt(d, d1, p)
    requires forall p :: p != JobDir(id) && p != ResultPath(id) ==> SameAt(d1, d2, p)
    requires keepsResult ==> forall p :: p != JobDir(id) ==> SameAt(d1, d2, p)
    requires forall p :: p in d1.entries && p != ResultPath(id) ==> p in d2.entries && d2.entries[p] == d1.entries[p]
    requires JobDir(id) !in d1.entries ==> IsDirAt(d2, JobDir(id))
    ensures forall p :: p != LastPath && p != JobDir(id) && p != ResultPath(id) ==> SameAt(d, d2, p)
    ensures JobDir(id) in d.entries ==> JobDir(id) in d2.entries && d2.entries[JobDir(id)] == d.entries[JobDir(id)]
    ensures JobDir(id) !in d.entries ==> IsDirAt(d2, JobDir(id))
    ensures keepsResult ==> SameAt(d, d2, ResultPath(id))
    ensures forall j :: j != id ==> ResultOf(d2, j) == ResultOf(d, j)
  {
    forall p | p != LastPath && p != JobDir(id) && p != ResultPath(id) ensures SameAt(d, d2, p) {
      assert SameAt(d, d1, p) && SameAt(d1, d2, p);
    }
    assert ResultPath(id) != LastPath && ResultPath(id) != JobDir(id);
    DecimalShape(id);
    assert Decimal(id)[0] != "last"[0];
    assert JobDir(id) != LastPath && SameAt(d, d1, JobDir(id));
    assert SameAt(d, d1, ResultPath(id));
    if keepsResult {
      assert SameAt(d1, d2, ResultPath(id));
    }
    forall j | j != id ensures ResultOf(d2, j) == ResultOf(d, j) {
      JobPathsDistinct(j, id, "");
      assert SameAt(d, d1, ResultPath(j)) && SameAt(d1, d2, ResultPath(j));
    }
  }

  /** Records `id` in the marker; fails when the root is missing or the
      marker is a directory. */
  function MarkLast(d: Disk, id: int): (r: Option<Disk>)
    ensures r.Some? <==> d.rootExists && !IsDirAt(d, LastPath)
    ensures r.Some? ==> FileAt(r.value, LastPath) == Some(Decimal(id))
    ensures r.Some? ==> r.value.rootExists == d.rootExists
    ensures r.Some? ==> r.value.entries.Keys == d.entries.Keys + {LastPath}
    ensures r.Some? ==> forall q :: q != LastPath ==> SameAt(d, r.value, q)
    ensures r.Some? && WellFormed(d) ==> WellFormed(r.value)
  {
    assert ValidPath(LastPath);
    WriteFile(d, LastPath, Decimal(id))
  }

  /** `put` never touches the marker. */
  lemma PutKeepsMarker(s: Service, taskLimit: int, id: int, body: string, contentType: string)
    ensures FileAt(Put(s, taskLimit, id, body, contentType).disk, LastPath) == FileAt(s.disk, LastPath)
  {
    JobPathsDistinct(id, id, "");
    assert ResultPath(id) != LastPath;
  }

  /** One request to `POST /test`. */
  datatype Request = Request(url: string, body: string, contentType: string)

  /** A run of `createTest` calls, each on the state the previous one left. */
  function CreateAll(s: Service, taskLimit: int, reqs: seq<Request>): (Service, seq<Creation>)
    decreases |reqs|
  {
    if |reqs| == 0 then (s, [])
    else
      var first := CreateTest(s, taskLimit, reqs[0].url, reqs[0].body, reqs[0].contentType);
      var rest := CreateAll(first.0, taskLimit, reqs[1..]);
      (rest.0, [first.1] + rest.1)
  }

  /** One creation from a marker allowing id `next` allocates `next` and
      leaves a marker allowing `next + 1`. */
  lemma CreateStep(s: Service, taskLimit: int, req: Request, next: int)
    requires s.disk.rootExists
    requires NextId(s.disk) == Some(next)
    ensures var r := CreateTest(s, taskLimit, req.url, req.body, req.contentType);
            && r.1.Created? && r.1.id == next && r.0.disk.rootExists
            && (next < LongMax ==> NextId(r.0.disk) == Some(next + 1))
  {
    var r := CreateTest(s, taskLimit, req.url, req.body, req.contentType);
    if next < LongMax {
      DecimalShape(next);
      assert IsLine(Decimal(next));
      NextIdAfterMarker(r.0.disk, Decimal(next), next);
    }
  }

  /** From a marker allowing id `next`, consecutive calls allocate `next`,
      `next + 1`, ... in order. */
  lemma {:induction false} ConsecutiveIdsFrom(s: Service, taskLimit: int, reqs: seq<Request>, next: int)
    requires s.disk.rootExists
    requires NextId(s.disk) == Some(next)
    requires LongMin <= next && next + |reqs| <= LongMax + 1
    ensures |CreateAll(s, taskLimit, reqs).1| == |reqs|
    ensures forall i :: 0 <= i < |reqs| ==>
              CreateAll(s, taskLimit, reqs).1[i].Created? && CreateAll(s, taskLimit, reqs).1[i].id == next + i
    decreases |reqs|
  {
    if |reqs| > 0 {
      var first := CreateTest(s, taskLimit, reqs[0].url, reqs[0].body, reqs[0].contentType);
      var rest := CreateAll(first.0, taskLimit, reqs[1..]).1;
      var all := CreateAll(s, taskLimit, reqs).1;
      assert all == [first.1] + rest;
      CreateStep(s, taskLimit, reqs[0], next);
      if |reqs| > 1 {
        ConsecutiveIdsFrom(first.0, taskLimit, reqs[1..], next + 1);
      }
      forall i | 0 <= i < |reqs|
        ensures all[i].Created? && all[i].id == next + i
      {
        if i > 0 {
          assert all[i] == rest[i - 1];
        }
      }
    }
  }

  /** Without a marker, k calls allocate the ids 0, 1, ..., k-1 in order. */
  lemma ConsecutiveIds(s: Service, taskLimit: int, reqs: seq<Request>)
    requires s.disk.rootExists && LastPath !in s.disk.entries
    requires |reqs| <= LongMax
    ensures |CreateAll(s, taskLimit, reqs).1| == |reqs|
    ensures forall i :: 0 <= i < |reqs| ==> CreateAll(s, taskLimit, reqs).1[i].Created? && CreateAll(s, taskLimit, reqs).1[i].id == i
  {
    ConsecutiveIdsFrom(s, taskLimit, reqs, 0);
  }

  // ---------------------------------------------------------------------
  // Status and listing
  // ---------------------------------------------------------------------

  /** `getTest`: a present result wins; otherwise a present directory means
      still running; otherwise not found. */
  function GetTest(d: Disk, id: int): (r: Status)
    ensures ResultOf(d, id).Some? ==> r == Finished(ResultOf(d, id).value)
    ensures ResultPath(id) !in d.entries && JobDir(id) in d.entries ==> r == StillRunning
    ensures ResultPath(id) !in d.entries && JobDir(id) !in d.entries ==> r == NotFound
    ensures r == ReadFailed <==> IsDirAt(d, ResultPath(id))
  {
    if ResultPath(id) in d.entries then
      match d.entries[ResultPath(id)]
      case File(data) => Finished(data)
      case Dir => ReadFailed
    else if JobDir(id) in d.entries then StillRunning
    else NotFound
  }

  /** `getTests`: one URL per directory directly under the root, built from
      the request URL without its trailing slash and the directory's name. */
  function GetTests(d: Disk, root: string, requestUrl: string): (r: Listing)
    ensures r.Listed? <==> d.rootExists
    ensures r.Listed? && WellFormed(d) ==> forall u :: u in r.urls <==>
              exists n :: IsDirAt(d, [n]) && u == StripTrailingSlash(requestUrl) + "/" + n
  {
    if !d.rootExists then RootMissing
    else
      var base := StripTrailingSlash(requestUrl);
      var urls := set p | p in d.entries && |p| == 1 && d.entries[p].Dir? :: base + "/" + Basename(root + "/" + p[0]);
      ListedNames(d, root, base, urls);
      Listed(urls)
  }

  lemma ListedNames(d: Disk, root: string, base: string, urls: set<string>)
    requires urls == set p | p in d.entries && |p| == 1 && d.entries[p].Dir? :: base + "/" + Basename(root + "/" + p[0])
    ensures WellFormed(d) ==> forall u :: u in urls <==> exists n :: IsDirAt(d, [n]) && u == base + "/" + n
  {
    if WellFormed(d) {
      forall u
        ensures u in urls <==> exists n :: IsDirAt(d, [n]) && u == base + "/" + n
      {
        if u in urls {
          var p :| p in d.entries && |p| == 1 && d.entries[p].Dir? && u == base + "/" + Basename(root + "/" + p[0]);
          assert ValidPath(p);
          BasenameOfChild(root, p[0]);
          assert p == [p[0]];
        }
        if n :| IsDirAt(d, [n]) && u == base + "/" + n {
          assert ValidPath([n]);
          BasenameOfChild(root, n);
          assert [n][0] == n;
        }
      }
    }
  }

  /** The marker is a file, so it never shows up as a job. */
  lemma ListingSkipsMarker(d: Disk, root: string, requestUrl: string)
    requires WellFormed(d) && d.rootExists
    requires LastPath in d.entries && d.entries[LastPath].File?
    ensures StripTrailingSlash(requestUrl) + "/last" !in GetTests(d, root, requestUrl).urls
  {
    var base := StripTrailingSlash(requestUrl);
    forall n | base + "/last" == base + "/" + n
      ensures !IsDirAt(d, [n])
    {
      SuffixAfter(base + "/", n);
      SuffixAfter(base + "/", "last");
      assert base + "/last" == (base + "/") + "last";
    }
  }

  // ---------------------------------------------------------------------
  // Cleanup
  // ---------------------------------------------------------------------

  /** The disk a cleanup leaves. */
  function CleanedDisk(d: Disk, undeletable: set<Path>): Disk {
    Disk(d.rootExists, Cleaned(d.entries, undeletable))
  }

  lemma CleanedDiskWellFormed(d: Disk, undeletable: set<Path>)
    requires WellFormed(d)
    ensures WellFormed(CleanedDisk(d, undeletable))
  {
    var c := CleanedDisk(d, undeletable);
    CleanedIsSubset(d.entries, undeletable);
    forall p, k | p in c.entries && 1 <= k < |p|
      ensures IsDirAt(c, p[..k])
    {
      assert PrefixClosed(d.entries);
      CleanedPrefixClosed(d.entries, undeletable);
    }
  }

  /** `cleanup`: when the root exists, every directory directly under it is
      deleted with its whole tree, descendants first; entries that are not
      directories, like the marker, stay, and so does the queue. A failed
      deletion keeps that entry and its ancestors and nothing else. The
      operation always succeeds. */
  method Cleanup(s: Service, undeletable: set<Path>) returns (s': Service)
    requires WellFormed(s.disk)
    ensures s'.queue == s.queue && s'.disk.rootExists == s.disk.rootExists
    ensures !s.disk.rootExists ==> s' == s
    ensures forall p :: p in s'.disk.entries ==> p in s.disk.entries && s'.disk.entries[p] == s.disk.entries[p]
    ensures forall p :: p in s.disk.entries ==>
              (p in s'.disk.entries <==> !InJobTree(s.disk.entries, p) || Pinned(s.disk.entries, p, undeletable))
    ensures s'.disk == CleanedDisk(s.disk, undeletable)
    ensures WellFormed(s'.disk)
  {
    if !s.disk.rootExists {
      assert Cleaned(s.disk.entries, undeletable) == s.disk.entries;
      s' := s;
    } else {
      var es := CleanupEntries(s.disk.entries, undeletable);
      s' := Service(Disk(true, es), s.queue);
    }
    CleanedDiskWellFormed(s.disk, undeletable);
  }

  /** After a cleanup without failures the listing is empty. */
  lemma ListingEmptyAfterCleanup(d: Disk, root: string, requestUrl: string)
    requires WellFormed(d) && d.rootExists
    ensures GetTests(CleanedDisk(d, {}), root, requestUrl) == Listed({})
  {
    CleanedRemovesJobTrees(d.entries);
    CleanedDiskWellFormed(d, {});
    var c := CleanedDisk(d, {});
    forall n
      ensures !IsDirAt(c, [n])
    {
      assert |[n]| == 1;
    }
  }

  /** A second cleanup changes nothing. */
  lemma CleanupIdempotent(d: Disk, undeletable: set<Path>)
    requires WellFormed(d)
    ensures CleanedDisk(CleanedDisk(d, undeletable), undeletable) == CleanedDisk(d, undeletable)
  {
    CleanedIdempotent(d.entries, undeletable);
  }

  /** The marker survives a cleanup, so ids continue where they were. */
  lemma IdsContinueAfterCleanup(d: Disk, undeletable: set<Path>)
    requires WellFormed(d)
    requires !IsDirAt(d, LastPath)
    ensures NextId(CleanedDisk(d, undeletable)) == NextId(d)
  {
    CleanedIsSubset(d.entries, undeletable);
    assert !InJobTree(d.entries, LastPath);
    assert LastIdText(CleanedDisk(d, undeletable)) == LastIdText(d);
  }

  // ---------------------------------------------------------------------
  // Job lifecycle
  // ---------------------------------------------------------------------

  /** A job accepted into the queue reads as still running, and its
      directory is ready for the worker. */
  lemma AcceptedJobPending(s: Service, taskLimit: int, requestUrl: string, body: string, contentType: string)
    requires WellFormed(s.disk) && s.disk.rootExists
    requires NextId(s.disk).Some? && JobDir(NextId(s.disk).value) !in s.disk.entries
    requires !Overflows(taskLimit, |s.queue|)
    ensures var (s1, c) := CreateTest(s, taskLimit, requestUrl, body, contentType);
            && c.Created?
            && s1.queue == s.queue + [Task(c.id, body, contentType)]
            && GetTest(s1.disk, c.id) == StillRunning
            && IsDirAt(s1.disk, JobDir(c.id))
            && ConfPath(c.id, ExtractMediaType(contentType)) !in s1.disk.entries
  {
    var id := NextId(s.disk).value;
    var d1 := MarkLast(s.disk, id).value;
    var mt := ExtractMediaType(contentType);
    AncestorIsDir(s.disk, ResultPath(id), 1);
    AncestorIsDir(s.disk, ConfPath(id, mt), 1);
    assert ResultPath(id)[..1] == JobDir(id) && ConfPath(id, mt)[..1] == JobDir(id);
    assert JobDir(id) != LastPath;
    var s1 := Put(Service(d1, s.queue), taskLimit, id, body, contentType);
    assert s1.disk.entries.Keys == d1.entries.Keys + {JobDir(id)};
    JobPathsDistinct(id, id, mt);
    assert ResultPath(id) !in s1.disk.entries && ConfPath(id, mt) !in s1.disk.entries;
  }

  /** The first job ever created gets id 0 and reads as still running. */
  lemma FirstJobCreated(s: Service, requestUrl: string, body: string, contentType: string)
    requires WellFormed(s.disk) && s.disk.rootExists
    requires LastPath !in s.disk.entries && JobDir(0) !in s.disk.entries
    requires s.queue == []
    ensures CreateTest(s, 0, requestUrl, body, contentType).1 == Created(StripTrailingSlash(requestUrl) + "/0", 0)
    ensures var s1 := CreateTest(s, 0, requestUrl, body, contentType).0;
            && s1.disk.rootExists
            && s1.queue == [Task(0, body, contentType)]
            && GetTest(s1.disk, 0) == StillRunning
            && IsDirAt(s1.disk, JobDir(0))
            && ConfPath(0, ExtractMediaType(contentType)) !in s1.disk.entries
  {
    assert Decimal(0) == "0";
    AcceptedJobPending(s, 0, requestUrl, body, contentType);
  }

  /** The first job reads as still running until the worker reaches it;
      after the tick that runs it, its result is the tool's output. */
  lemma FirstJobLifecycle(s: Service, requestUrl: string, body: string, contentType: string,
                          env: Env, lines: seq<string>)
    requires WellFormed(s.disk) && s.disk.rootExists
    requires LastPath !in s.disk.entries && JobDir(0) !in s.disk.entries
    requires s.queue == []
    requires ConfText(Task(0, body, contentType), env).Some?
    requires env.bzt(ConfText(Task(0, body, contentType), env).value) == Some(lines)
    ensures GetTest(CreateTest(s, 0, requestUrl, body, contentType).0.disk, 0) == StillRunning
    ensures GetTest(Run(CreateTest(s, 0, requestUrl, body, contentType).0, env).disk, 0) == Finished(Joined(lines))
  {
    FirstJobCreated(s, requestUrl, body, contentType);
    var s1 := CreateTest(s, 0, requestUrl, body, contentType).0;
    RunStoresOutput(s1, env, lines);
  }

  /** A job turned away by a full queue can be read at once, and reads as
      the overflow error. */
  lemma OverflowVisibleAtOnce(s: Service, taskLimit: int, requestUrl: string, body: string, contentType: string, id: int)
    requires WellFormed(s.disk) && s.disk.rootExists
    requires Overflows(taskLimit, |s.queue|)
    requires NextId(s.disk) == Some(id)
    requires JobDir(id) !in s.disk.entries
    ensures var (s1, c) := CreateTest(s, taskLimit, requestUrl, body, contentType);
            && c.Created? && c.id == id
            && s1.queue == s.queue
            && GetTest(s1.disk, id) == Finished(OverflowBody)
  {
    var d1 := WriteFile(s.disk, LastPath, Decimal(id)).value;
    JobPathsDistinct(id, id, "");
    assert JobDir(id) != LastPath by {
      DecimalShape(id);
      assert Decimal(id)[0] != 'l';
    }
    assert JobDir(id) !in d1.entries;
    AncestorIsDir(s.disk, ResultPath(id), 1);
    assert ResultPath(id)[..1] == JobDir(id);
    assert ResultPath(id) !in d1.entries;
    OverflowWritesError(Service(d1, s.queue), taskLimit, id, body, contentType);
  }
}

=== FILE: text.dfy ===
/** String helpers the service and the controller rely on: ASCII
    upper-casing and substring search (media-type detection), decimal
    rendering and parsing of 64-bit ids, joining and splitting lines of
    subprocess output, and the two regular-expression rewrites applied to
    URLs and paths. */
module Text {
  import opened Wrappers

  // ---------------------------------------------------------------------
  // Upper-casing and substring search
  // ---------------------------------------------------------------------

  function UpperChar(c: char): char {
    if 'a' <= c <= 'z' then (c as int - 'a' as int + 'A' as int) as char else c
  }

  /** Upper-cases every ASCII letter and leaves every other character alone. */
  function Upper(s: string): (u: string)
    ensures |u| == |s|
    ensures forall i :: 0 <= i < |s| ==> u[i] == UpperChar(s[i])
  {
    seq(|s|, i requires 0 <= i < |s| => UpperChar(s[i]))
  }

  /** `needle` occurs at some position of `hay`. */
  ghost predicate IsSubstring(needle: string, hay: string) {
    exists i :: OccursAt(needle, hay, i)
  }

  predicate OccursAt(needle: string, hay: string, i: int) {
    0 <= i <= |hay| - |needle| && hay[i..i + |needle|] == needle
  }

  /** A position where one character differs is not an occurrence. */
  lemma MismatchAt(needle: string, hay: string, i: int, k: nat)
    requires k < |needle| && 0 <= i && i + k < |hay| && hay[i + k] != needle[k]
    ensures !OccursAt(needle, hay, i)
  {
    if i + |needle| <= |hay| {
      assert hay[i..i + |needle|][k] == hay[i + k];
    }
  }

  lemma SubstringOfTail(needle: string, hay: string)
    requires |hay| > 0
    ensures IsSubstring(needle, hay) <==>
              (|needle| <= |hay| && hay[..|needle|] == needle) || IsSubstring(needle, hay[1..])
  {
    if IsSubstring(needle, hay) {
      var i :| OccursAt(needle, hay, i);
      if i > 0 {
        assert hay[1..][i - 1..i - 1 + |needle|] == needle;
        assert OccursAt(needle, hay[1..], i - 1);
      }
    }
    if IsSubstring(needle, hay[1..]) {
      var i :| OccursAt(needle, hay[1..], i);
      assert hay[i + 1..i + 1 + |needle|] == needle;
      assert OccursAt(needle, hay, i + 1);
    }
    if |needle| <= |hay| && hay[..|needle|] == needle {
      assert OccursAt(needle, hay, 0);
    }
  }

  /** Left-to-right search for `needle`, as `String.contains` does it. */
  function Contains(hay: string, needle: string): (b: bool)
    ensures b <==> IsSubstring(needle, hay)
    decreases |hay|
  {
    if |needle| > |hay| then false
    else if hay[..|needle|] == needle then assert OccursAt(needle, hay, 0); true
    else SubstringOfTail(needle, hay); Contains(hay[1..], needle)
  }

  // ---------------------------------------------------------------------
  // Decimal rendering and parsing of ids
  // ---------------------------------------------------------------------

  const LongMin: int := -0x8000_0000_0000_0000
  const LongMax: int := 0x7FFF_FFFF_FFFF_FFFF

  predicate IsDigit(c: char) {
    '0' <= c <= '9'
  }

  predicate AllDigits(s: string) {
    forall i :: 0 <= i < |s| ==> IsDigit(s[i])
  }

  function DigitChar(d: int): (c: char)
    requires 0 <= d < 10
  {
    ('0' as int + d) as char
  }

  function DigitValue(c: char): int
    requires IsDigit(c)
  {
    c as int - '0' as int
  }

  /** Base-ten rendering of a natural number without leading zeros. */
  function NatDecimal(n: nat): (s: string)
    decreases n
  {
    if n < 10 then [DigitChar(n)] else NatDecimal(n / 10) + [DigitChar(n % 10)]
  }

  /** `Long.toString`: an optional minus sign followed by the digits. */
  function Decimal(n: int): string {
    if n < 0 then "-" + NatDecimal(-n) else NatDecimal(n)
  }

  /** Value of a string of decimal digits, most significant first. */
  function DigitsValue(s: string): nat
    requires AllDigits(s)
    decreases |s|
  {
    if |s| == 0 then 0 else DigitsValue(s[..|s| - 1]) * 10 + DigitValue(s[|s| - 1])
  }

  /** `Long.parseLong` without its range check: an optional sign followed by
      at least one digit; anything else is a NumberFormatException (None). */
  function ParseDecimal(s: string): Option<int> {
    if |s| == 0 then None
    else if s[0] == '-' || s[0] == '+' then
      if |s| == 1 || !AllDigits(s[1..]) then None
      else if s[0] == '-' then Some(0 - DigitsValue(s[1..]) as int)
      else Some(DigitsValue(s[1..]))
    else if AllDigits(s) then Some(DigitsValue(s))
    else None
  }

  /** `Long.parseLong`: the decimal value when it fits in 64 bits. */
  function ParseLong(s: string): (r: Option<int>)
    ensures r.Some? ==> LongMin <= r.value <= LongMax && ParseDecimal(s) == r
    ensures r.None? ==> ParseDecimal(s).None? || !(LongMin <= ParseDecimal(s).value <= LongMax)
  {
    match ParseDecimal(s)
    case Some(v) => if LongMin <= v <= LongMax then Some(v) else None
    case None => None
  }

  /** Two's-complement wrap-around of a `long` computation. */
  function WrapLong(x: int): (r: int)
    ensures LongMin <= r <= LongMax
    ensures LongMin <= x <= LongMax ==> r == x
    ensures (r - x) % 0x1_0000_0000_0000_0000 == 0
  {
    (x - LongMin) % 0x1_0000_0000_0000_0000 + LongMin
  }

  lemma {:induction false} NatDecimalRoundTrip(n: nat)
    ensures |NatDecimal(n)| >= 1
    ensures AllDigits(NatDecimal(n))
    ensures DigitsValue(NatDecimal(n)) == n
    decreases n
  {
    var s := NatDecimal(n);
    if n < 10 {
      assert s == [DigitChar(n)];
    } else {
      var t, c := NatDecimal(n / 10), DigitChar(n % 10);
      NatDecimalRoundTrip(n / 10);
      assert s == t + [c];
      assert s[..|s| - 1] == t && s[|s| - 1] == c;
      forall i | 0 <= i < |s|
        ensures IsDigit(s[i])
      {
        if i < |t| {
          assert s[i] == t[i];
        }
      }
      assert DigitsValue(s) == DigitsValue(t) * 10 + n % 10;
    }
  }

  /** Parsing what `Long.toString` printed gives back the number. */
  lemma DecimalRoundTrip(n: int)
    ensures ParseDecimal(Decimal(n)) == Some(n)
    ensures LongMin <= n <= LongMax ==> ParseLong(Decimal(n)) == Some(n)
  {
    if n < 0 {
      NatDecimalRoundTrip(-n);
      assert Decimal(n)[1..] == NatDecimal(-n);
    } else {
      NatDecimalRoundTrip(n);
    }
  }

  /** Distinct ids have distinct names. */
  lemma DecimalInjective(a: int, b: int)
    requires Decimal(a) == Decimal(b)
    ensures a == b
  {
    DecimalRoundTrip(a);
    DecimalRoundTrip(b);
  }

  /** A rendered id is a non-empty run of digits and minus signs. */
  lemma DecimalShape(n: int)
    ensures |Decimal(n)| >= 1
    ensures forall i :: 0 <= i < |Decimal(n)| ==> Decimal(n)[i] == '-' || IsDigit(Decimal(n)[i])
  {
    var d := NatDecimal(if n < 0 then -n else n);
    NatDecimalRoundTrip(if n < 0 then -n else n);
    assert forall i :: 0 <= i < |d| ==> IsDigit(d[i]);
    if n < 0 {
      assert Decimal(n) == "-" + d;
      forall i | 0 <= i < |Decimal(n)|
        ensures Decimal(n)[i] == '-' || IsDigit(Decimal(n)[i])
      {
        if i > 0 {
          assert Decimal(n)[i] == d[i - 1];
        }
      }
    } else {
      assert Decimal(n) == d;
    }
  }

  // ---------------------------------------------------------------------
  // Lines of text
  // ---------------------------------------------------------------------

  /** Every line followed by a line feed, the text `extractResult` builds. */
  function Joined(lines: seq<string>): string {
    if |lines| == 0 then "" else lines[0] + "\n" + Joined(lines[1..])
  }

  function TotalLength(lines: seq<string>): nat {
    if |lines| == 0 then 0 else |lines[0]| + 1 + TotalLength(lines[1..])
  }

  predicate IsTerminator(c: char) {
    c == '\n' || c == '\r'
  }

  /** A line as `BufferedReader.readLine` returns it never holds a terminator. */
  predicate IsLine(s: string) {
    forall i :: 0 <= i < |s| ==> !IsTerminator(s[i])
  }

  /** Index of the first line terminator, or |s| when there is none. */
  function LineEnd(s: string): (k: nat)
    ensures k <= |s|
    ensures IsLine(s[..k])
    ensures k < |s| ==> IsTerminator(s[k])
    decreases |s|
  {
    if |s| == 0 then 0
    else if IsTerminator(s[0]) then 0
    else 1 + LineEnd(s[1..])
  }

  /** The lines `BufferedReader.readLine` yields for a text: a line ends at
      "\n", "\r" or "\r\n", and a final unterminated line still counts. */
  function Lines(s: string): seq<string>
    decreases |s|
  {
    if |s| == 0 then []
    else
      var k := LineEnd(s);
      if k == |s| then [s]
      else
        var next := if s[k] == '\r' && k + 1 < |s| && s[k + 1] == '\n' then k + 2 else k + 1;
        [s[..k]] + Lines(s[next..])
  }

  lemma {:induction false} JoinedSnoc(lines: seq<string>, x: string)
    ensures Joined(lines + [x]) == Joined(lines) + x + "\n"
    decreases |lines|
  {
    if |lines| > 0 {
      assert (lines + [x])[1..] == lines[1..] + [x];
      JoinedSnoc(lines[1..], x);
    }
  }

  /** The result text holds every line plus one line feed per line. */
  lemma {:induction false} JoinedLength(lines: seq<string>)
    ensures |Joined(lines)| == TotalLength(lines)
    decreases |lines|
  {
    if |lines| > 0 {
      JoinedLength(lines[1..]);
    }
  }

  lemma {:induction false} LineEndOfLine(x: string, rest: string)
    requires IsLine(x)
    ensures LineEnd(x + "\n" + rest) == |x|
    decreases |x|
  {
    if |x| > 0 {
      assert (x + "\n" + rest)[1..] == x[1..] + "\n" + rest;
      LineEndOfLine(x[1..], rest);
    }
  }

  /** Dropping a prefix leaves exactly what followed it. */
  lemma SuffixAfter(a: string, b: string)
    ensures (a + b)[|a|..] == b
  {
  }

  /** Reading the result text back line by line recovers the lines. */
  lemma {:induction false} LinesOfJoined(lines: seq<string>)
    requires forall i :: 0 <= i < |lines| ==> IsLine(lines[i])
    ensures Lines(Joined(lines)) == lines
    decreases |lines|
  {
    if |lines| > 0 {
      var x, tail := lines[0], Joined(lines[1..]);
      var s := Joined(lines);
      assert s == (x + "\n") + tail;
      LineEndOfLine(x, tail);
      assert s[..|x|] == x;
      assert s[|x|] == '\n';
      SuffixAfter(x + "\n", tail);
      assert s[|x| + 1..] == tail;
      assert Lines(s) == [x] + Lines(tail);
      LinesOfJoined(lines[1..]);
      assert lines == [x] + lines[1..];
    }
  }

  /** The first line of a text, as `Files.lines(...).findAny()` yields it:
      everything up to the first line terminator. */
  function FirstLine(s: string): (r: Option<string>)
    ensures r.None? <==> |s| == 0
    ensures r.Some? ==> IsLine(r.value) && r.value <= s
    ensures r.Some? ==> |r.value| == |s| || IsTerminator(s[|r.value|])
    ensures r.Some? && IsLine(s) ==> r.value == s
  {
    if |Lines(s)| == 0 then None else Some(Lines(s)[0])
  }

  /** The first line of a text that starts with a line and a line feed is
      that line, whatever follows. */
  lemma FirstLineOfText(x: string, rest: string)
    requires IsLine(x)
    ensures FirstLine(x + "\n" + rest) == Some(x)
  {
    LineEndOfLine(x, rest);
    assert (x + "\n" + rest)[..|x|] == x;
  }

  // ---------------------------------------------------------------------
  // The two regular-expression rewrites
  // ---------------------------------------------------------------------

  /** `replaceAll("/$", "")`: drops one trailing slash. */
  function StripTrailingSlash(u: string): (r: string)
    ensures u == r || u == r + "/"
    ensures |u| > 0 && u[|u| - 1] == '/' ==> u == r + "/"
  {
    if |u| > 0 && u[|u| - 1] == '/' then u[..|u| - 1] else u
  }

  /** Start of the slash-free tail of `s`: just after its last slash, or 0. */
  function TailStart(s: string): (k: nat)
    ensures k <= |s|
    ensures forall i :: k <= i < |s| ==> s[i] != '/'
    ensures k > 0 ==> s[k - 1] == '/'
    decreases |s|
  {
    if |s| == 0 then 0
    else if s[|s| - 1] == '/' then |s|
    else TailStart(s[..|s| - 1])
  }

  // `replaceAll(".*/", "")`: keeps what follows the last slash.
  function Basename(s: string): (r: string)
    ensures '/' !in r
    ensures |r| <= |s| && s[|s| - |r|..] == r
  {
    s[TailStart(s)..]
  }

  /** The last component of a joined path is the name that was appended. */
  lemma BasenameOfChild(parent: string, name: string)
    requires '/' !in name
    ensures Basename(parent + "/" + name) == name
  {
    var s := parent + "/" + name;
    var k := TailStart(s);
    assert s[|parent|] == '/';
    assert k > |parent|;
    assert forall j :: 0 <= j < |name| ==> s[|parent| + 1 + j] == name[j] != '/';
    assert k == |parent| + 1;
    assert s[k..] == name;
  }
}

=== FILE: tree_deletion.dfy ===
/** The body of `cleanup`: every directory directly under the store root is
    walked, its paths are sorted in reverse order, and each is deleted with
    `Files.delete`, which refuses a directory that still has children. A
    failed deletion is logged and the walk goes on with the next path.
    Deletions that fail for reasons outside the model (permissions, a busy
    file) are given as the set `undeletable`. */
module TreeDeletion {
  import opened FileSystem
  import opened PathOrder

  type Entries = map<Path, Node>

  /** Every non-empty proper prefix of an entry is an entry too. */
  predicate PrefixClosed(es: Entries) {
    forall q, k :: q in es && 1 <= k < |q| ==> q[..k] in es
  }

  predicate NonEmptyPaths(es: Entries) {
    forall q :: q in es ==> |q| >= 1
  }

  /** `p` lies in the tree of a directory directly under the root. */
  predicate InJobTree(es: Entries, p: Path) {
    |p| >= 1 && [p[0]] in es && es[[p[0]]].Dir?
  }

  /** Some entry at or below `p` cannot be deleted, so `p` survives. */
  predicate Pinned(es: Entries, p: Path, undeletable: set<Path>) {
    exists q :: q in es && q in undeletable && IsPrefix(p, q)
  }

  /** The entries left after a cleanup: everything outside the job trees,
      and every entry with an undeletable entry at or below it. */
  function Cleaned(es: Entries, undeletable: set<Path>): Entries {
    map p | p in es && (!InJobTree(es, p) || Pinned(es, p, undeletable)) :: es[p]
  }

  predicate HasChild(es: Entries, p: Path) {
    exists c :: c in es && |c| == |p| + 1 && c[..|p|] == p
  }

  /** `Files.delete`: removes a file or an empty directory; anything else
      fails and leaves the entries as they are. */
  function Delete(es: Entries, p: Path, undeletable: set<Path>): (r: Entries)
    ensures r == es || (p in es && r == es - {p})
    ensures p in r <==> p in es && (p in undeletable || HasChild(es, p))
  {
    if p in es && p !in undeletable && !HasChild(es, p) then es - {p} else es
  }

  lemma PinnedThroughChild(es: Entries, p: Path, q: Path)
    requires PrefixClosed(es)
    requires q in es && ProperPrefix(p, q)
    ensures q[..|p| + 1] in es && IsPrefix(p, q[..|p| + 1]) && IsPrefix(q[..|p| + 1], q)
  {
    assert q[..|p| + 1][..|p|] == p;
    if |p| + 1 < |q| {
      assert q[..|p| + 1] in es;
    } else {
      assert q[..|p| + 1] == q;
    }
  }

  lemma PrefixTransitive(a: Path, b: Path, c: Path)
    requires IsPrefix(a, b) && IsPrefix(b, c)
    ensures IsPrefix(a, c)
  {
    assert c[..|a|] == c[..|b|][..|a|];
  }

  /** Index of an element of a sequence. */
  lemma IndexOf(order: seq<Path>, x: Path) returns (j: nat)
    requires x in order
    ensures j < |order| && order[j] == x
  {
    j :| 0 <= j < |order| && order[j] == x;
  }

  /** The state after deleting the first `i` paths of `order`, one by one. */
  predicate DeletedUpTo(es: Entries, order: seq<Path>, i: nat, r: Entries, undeletable: set<Path>)
    requires i <= |order|
  {
    && (forall k :: k in r ==> k in es && r[k] == es[k])
    && (forall k :: k in es ==> (k in r <==> k !in order[..i] || Pinned(es, k, undeletable)))
  }

  /** What a deletion order must satisfy for `DeleteInOrder`: it lists
      entries, each once, every descendant of a listed path is listed, and
      listed before it. */
  predicate GoodOrder(es: Entries, order: seq<Path>) {
    && PrefixClosed(es)
    && (forall p :: p in order ==> p in es)
    && Distinct(order) && ChildrenFirst(order)
    && (forall p, q :: p in order && q in es && IsPrefix(p, q) ==> q in order)
  }

  /** A child of `order[i]` that is still there when `order[i]`'s turn
      comes is pinned. */
  lemma SurvivingChildIsPinned(es: Entries, order: seq<Path>, i: nat, r: Entries,
                               undeletable: set<Path>, c: Path)
    requires GoodOrder(es, order) && i < |order|
    requires DeletedUpTo(es, order, i, r, undeletable)
    requires c in r && ProperPrefix(order[i], c)
    ensures Pinned(es, c, undeletable)
  {
    assert IsPrefix(order[i], c);
    var j := IndexOf(order, c);
    assert j < i;
    assert order[..i][j] == c;
  }

  /** A pinned path keeps a child, or is itself undeletable, when its turn
      comes, so its deletion fails. */
  lemma PinnedSurvives(es: Entries, order: seq<Path>, i: nat, r: Entries, undeletable: set<Path>)
    requires GoodOrder(es, order) && i < |order|
    requires DeletedUpTo(es, order, i, r, undeletable)
    requires Pinned(es, order[i], undeletable)
    ensures order[i] in undeletable || HasChild(r, order[i])
  {
    var p := order[i];
    if p !in undeletable {
      var q :| q in es && q in undeletable && IsPrefix(p, q);
      PinnedThroughChild(es, p, q);
      var c := q[..|p| + 1];
      var j := IndexOf(order, c);
      assert j < i;
      assert order[..i][j] == c;
      assert Pinned(es, c, undeletable);
      assert c in r;
    }
  }

  /** An unpinned path has no child left when its turn comes, so its
      deletion succeeds. */
  lemma UnpinnedIsDeleted(es: Entries, order: seq<Path>, i: nat, r: Entries, undeletable: set<Path>)
    requires GoodOrder(es, order) && i < |order|
    requires DeletedUpTo(es, order, i, r, undeletable)
    requires !Pinned(es, order[i], undeletable)
    ensures order[i] !in undeletable && !HasChild(r, order[i])
  {
    var p := order[i];
    assert IsPrefix(p, p);
    if c :| c in r && |c| == |p| + 1 && c[..|p|] == p {
      SurvivingChildIsPinned(es, order, i, r, undeletable, c);
      var q :| q in es && q in undeletable && IsPrefix(c, q);
      PrefixTransitive(p, c, q);
    }
  }

  /** Deleting the next path of the order, or failing to, extends the
      invariant by one position. */
  lemma DeletedUpToNext(es: Entries, order: seq<Path>, i: nat, r: Entries, r': Entries, undeletable: set<Path>)
    requires i < |order| && order[i] !in order[..i]
    requires DeletedUpTo(es, order, i, r, undeletable)
    requires Pinned(es, order[i], undeletable) ==> r' == r
    requires !Pinned(es, order[i], undeletable) ==> r' == r - {order[i]}
    ensures DeletedUpTo(es, order, i + 1, r', undeletable)
  {
    assert order[..i + 1] == order[..i] + [order[i]];
    forall k | k in es
      ensures k in r' <==> k !in order[..i + 1] || Pinned(es, k, undeletable)
    {
      assert k in order[..i + 1] <==> k in order[..i] || k == order[i];
    }
  }

  lemma DeleteStep(es: Entries, order: seq<Path>, i: nat, r: Entries, undeletable: set<Path>)
    requires GoodOrder(es, order) && i < |order|
    requires DeletedUpTo(es, order, i, r, undeletable)
    ensures DeletedUpTo(es, order, i + 1, Delete(r, order[i], undeletable), undeletable)
  {
    var p := order[i];
    forall j | 0 <= j < i
      ensures order[..i][j] != p
    {
      assert order[..i][j] == order[j];
    }
    if Pinned(es, p, undeletable) {
      PinnedSurvives(es, order, i, r, undeletable);
    } else {
      UnpinnedIsDeleted(es, order, i, r, undeletable);
    }
    DeletedUpToNext(es, order, i, r, Delete(r, p, undeletable), undeletable);
  }

  /** The paths of `order` are deleted one after the other. Provided the
      order lists every descendant of each of its paths, and lists it first,
      a path is gone afterwards exactly when nothing at or below it was
      undeletable. */
  method DeleteInOrder(es: Entries, order: seq<Path>, undeletable: set<Path>) returns (r: Entries)
    requires GoodOrder(es, order)
    ensures forall k :: k in r ==> k in es && r[k] == es[k]
    ensures forall k :: k in es ==> (k in r <==> k !in order || Pinned(es, k, undeletable))
  {
    r := es;
    var i := 0;
    while i < |order|
      invariant 0 <= i <= |order|
      invariant DeletedUpTo(es, order, i, r, undeletable)
    {
      DeleteStep(es, order, i, r, undeletable);
      r := Delete(r, order[i], undeletable);
      i := i + 1;
    }
    assert order[..i] == order;
  }

  /** Joining the sorted walks of two different top-level directories keeps
      every descendant ahead of its ancestors. */
  lemma ConcatBlocks(a: seq<Path>, b: seq<Path>)
    requires Distinct(a) && Distinct(b) && ChildrenFirst(a) && ChildrenFirst(b)
    requires forall x :: x in a + b ==> |x| >= 1
    requires forall x, y :: x in a && y in b ==> x[0] != y[0]
    ensures Distinct(a + b) && ChildrenFirst(a + b)
  {
    var ab := a + b;
    forall i, j | 0 <= i < |ab| && 0 <= j < |ab| && ProperPrefix(ab[j], ab[i])
      ensures i < j
    {
      assert ab[i][0] == ab[j][0];
      if i < |a| && j < |a| {
        assert ab[i] == a[i] && ab[j] == a[j];
      } else if i >= |a| && j >= |a| {
        assert ab[i] == b[i - |a|] && ab[j] == b[j - |a|];
      }
    }
    forall i, j | 0 <= i < j < |ab|
      ensures ab[i] != ab[j]
    {
      if i < |a| && j >= |a| {
        assert ab[i] in a && ab[j] in b;
      } else if i >= |a| {
        assert ab[i] == b[i - |a|] && ab[j] == b[j - |a|];
      }
    }
  }

  /** The deletion order `cleanup` follows: for each directory directly
      under the root, in whatever order the listing gives, its whole tree in
      reverse path order. */
  method PlanCleanup(es: Entries) returns (order: seq<Path>)
    requires NonEmptyPaths(es)
    ensures forall p :: p in order <==> p in es && InJobTree(es, p)
    ensures Distinct(order) && ChildrenFirst(order)
  {
    var tops := set t | t in es && |t| == 1 && es[t].Dir?;
    var done: set<Path> := {};
    order := [];
    while tops - done != {}
      invariant done <= tops
      invariant forall p :: p in order <==> p in es && InJobTree(es, p) && [p[0]] in done
      invariant Distinct(order) && ChildrenFirst(order)
      decreases tops - done
    {
      var t :| t in tops - done;
      assert t == [t[0]];
      var block := SortDescending(set p | p in es && p[0] == t[0]);
      ConcatBlocks(order, block);
      order := order + block;
      done := done + {t};
    }
  }

  /** `cleanup` below an existing root: the entries it leaves. */
  method CleanupEntries(es: Entries, undeletable: set<Path>) returns (r: Entries)
    requires NonEmptyPaths(es) && PrefixClosed(es)
    ensures r == Cleaned(es, undeletable)
  {
    var order := PlanCleanup(es);
    forall p, q | p in order && q in es && IsPrefix(p, q)
      ensures q in order
    {
      assert q[0] == p[0];
    }
    r := DeleteInOrder(es, order, undeletable);
    assert r.Keys == Cleaned(es, undeletable).Keys;
  }

  /** Cleaning up only removes entries and never alters what is left. */
  lemma CleanedIsSubset(es: Entries, undeletable: set<Path>)
    ensures forall p :: p in Cleaned(es, undeletable) ==> p in es && Cleaned(es, undeletable)[p] == es[p]
    ensures forall p :: p in es && !InJobTree(es, p) ==> p in Cleaned(es, undeletable)
  {
  }

  /** Without failures, nothing of any job tree survives. */
  lemma CleanedRemovesJobTrees(es: Entries)
    ensures forall p :: p in Cleaned(es, {}) ==> !InJobTree(es, p)
    ensures forall p :: p in Cleaned(es, {}) && |p| == 1 ==> !Cleaned(es, {})[p].Dir?
  {
    forall p | p in Cleaned(es, {}) && |p| == 1
      ensures !Cleaned(es, {})[p].Dir?
    {
      assert p == [p[0]];
    }
  }

  /** A second cleanup removes nothing more. */
  lemma CleanedIdempotent(es: Entries, undeletable: set<Path>)
    requires NonEmptyPaths(es)
    ensures Cleaned(Cleaned(es, undeletable), undeletable) == Cleaned(es, undeletable)
  {
    var c := Cleaned(es, undeletable);
    forall p | p in c
      ensures !InJobTree(c, p) || Pinned(c, p, undeletable)
    {
      if InJobTree(es, p) {
        var q :| q in es && q in undeletable && IsPrefix(p, q);
        assert q[0] == p[0];
        assert IsPrefix(q, q);
        assert q in c;
      }
    }
    assert Cleaned(c, undeletable).Keys == c.Keys;
  }

  /** The entries left by a cleanup are still prefix-closed. */
  lemma CleanedPrefixClosed(es: Entries, undeletable: set<Path>)
    requires PrefixClosed(es)
    ensures PrefixClosed(Cleaned(es, undeletable))
  {
    var c := Cleaned(es, undeletable);
    forall q, k | q in c && 1 <= k < |q|
      ensures q[..k] in c
    {
      var a := q[..k];
      assert a[0] == q[0];
      if InJobTree(es, q) {
        var w :| w in es && w in undeletable && IsPrefix(q, w);
        PrefixTransitive(a, q, w);
      }
    }
  }
}

=== FILE: wrappers.dfy ===
/** Optional values, used for every operation of the model that the source
    lets fail (an IOException, a NumberFormatException, a failed cast). */
module Wrappers {

  datatype Option<+T> = None | Some(value: T)
}
